=== FILE: README.md ===
# Live tennis scoreboard — a Dafny model of its core

The scoreboard has two halves.

The **API service** (`main_api.py`) polls an upstream bot for matches. It runs every match through the market grouper (`aggregator/sports/tennis/market_grouper.py`). It keeps the current list and a one-hour match cache, and it serves both over HTTP.

The **React client** (`my-react-app/src/`) has three parts:

- The live list (`TennisData.jsx`) holds a snapshot of the matches. HTTP fetches, socket push frames and socket lifecycle events update it.
- The match page (`MatchDetail.jsx`) shows one match.
- The debug overlay (`WebSocketDebugOverlay.jsx`) shows socket figures.

This project models these decision procedures as pure functions over immutable data, and proves what they promise.

Modules, one per file:

| file | module | what it models |
|---|---|---|
| wrappers.dfy | `Wrappers` | `Option` and `Result` |
| json.dfy | `Json` | parsed JSON values with ordered members; JavaScript and Python truthiness; `||` defaults; member lookup; `d[k] = v`; `.length`; `Object.entries`; which values React accepts as children |
| digits.dfy | `Digits` | decimal rendering of integers, read back |
| stringify.dfy | `Stringify` | `JSON.stringify` and `isEqual`; the stringification is injective |
| engine.dfy | `Engine` | the live list's state record and its event handlers, as one function `Step` |
| engine_props.dfy | `EngineProps` | the snapshot policy's properties: never regress, fallbacks, dedup, counters, transport |
| tennis_view.dfy | `TennisView` | the live list's view choice, which cards make the render throw, status texts and overlay figures |
| player_name.dfy | `PlayerName` | `formatPlayerName` |
| match_detail.dfy | `MatchDetail` | the match page: fetch state, view choice, field defaults, set cells, market categories, which matches make the render throw |
| overlay.dfy | `Overlay` | uptime, last-message summary, efficiency, status colour |
| pyops.dfy | `PyOps` | Python `in`, `[]`, `.get`, `.copy` and dict-key equality, with their exceptions as `Failure` |
| market_grouper.dfy | `MarketGrouper` | `process_matches`, `_group_markets_by_name`, `group_markets` |
| server.dfy | `Server` | the refresh step of `process_tennis_data`, `get_match_details`, `get_tennis_matches` |
| end_to_end.dfy | `EndToEnd` | what the client pages make of what the service serves |

Inputs that come from outside the code are explicit parameters:

- clock readings (the `Date.now()` in placeholder records, the server's `time.time()`, the overlay's elapsed time);
- socket frames, together with their parse result;
- upstream responses;
- the close code of a socket.

## Model

| member | source | states |
|---|---|---|
| Stringify.IsEqualIsStructural | my-react-app/src/TennisData.jsx:10-12 | `isEqual` holds exactly when the two values are equal as data: stringification loses nothing |
| Stringify.SerUnique | my-react-app/src/TennisData.jsx:10-12 | a value's JSON text, followed by text not starting with a digit, determines the value and the rest |
| Engine.Offered | my-react-app/src/TennisData.jsx:84 | a body is accepted exactly when it is truthy and its `matches` is present and has length > 0; what it offers is that `matches` member |
| Engine.Preview | my-react-app/src/TennisData.jsx:206-208 | a frame of at most 500 characters is kept verbatim; a longer one keeps its first 500 characters, then `... (`, its length in decimal and ` chars)` |
| Engine.Step | my-react-app/src/TennisData.jsx:68-375 | poll timers never decrease; every frame adds exactly one to the message count and nothing else does; only a frame can add to the update count, and by one |
| EngineProps.NeverRegress | my-react-app/src/TennisData.jsx:101-139 | once a non-empty list is held, none of these leaves it anything but unchanged: an HTTP failure, a body without usable matches, a frame that does not parse, is not an array or is empty |
| EngineProps.StepInv | my-react-app/src/TennisData.jsx:68-271 | every event keeps held lists non-empty and `updateCount <= wsMessageCount`; once something is held, something stays held |
| EngineProps.RunInv | my-react-app/src/TennisData.jsx:68-375 | the invariant holds after any sequence of events, and held data is never dropped |
| EngineProps.ReachableInv | my-react-app/src/TennisData.jsx:15-30 | from the mount state, every reachable state has `updateCount <= wsMessageCount` and only non-empty held lists |
| EngineProps.EmptyBodyInstallsPlaceholder | my-react-app/src/TennisData.jsx:101-148 | with nothing held, a body without usable matches installs the `fallback_match_1` list, fingerprinted by its stringification; a `null` body then throws at the timestamp line and sets the error |
| EngineProps.FailureInstallsPlaceholder | my-react-app/src/TennisData.jsx:149-182 | with nothing held, a failed fetch installs the `error_fallback_match` list, fingerprinted by its stringification, and sets the error to the thrown message |
| EngineProps.PlaceholderIds | my-react-app/src/TennisData.jsx:109-131 | each placeholder list holds exactly one record, with its fixed `match_id` |
| EngineProps.FetchReplaces | my-react-app/src/TennisData.jsx:84-100 | an offered list replaces what is held, with its stringification as the fingerprint, exactly when nothing is held or the fingerprint differs; otherwise both stay; the error is cleared |
| EngineProps.FetchError | my-react-app/src/TennisData.jsx:143-151 | a completed fetch clears the error, except that a `null` body throws and sets it; a failed fetch sets it to the thrown message |
| EngineProps.DuplicateFrame | my-react-app/src/TennisData.jsx:195-215 | a frame whose raw text equals a non-empty fingerprint only adds one to the message count and records the last message |
| EngineProps.FrameUpdate | my-react-app/src/TennisData.jsx:218-241 | a frame bumps `updateCount` if and only if it is not the fingerprint, parses to a non-empty array and differs from the held matches (or nothing is held); such a frame installs exactly that array with the raw text as the fingerprint; any other frame leaves both unchanged |
| EngineProps.RepeatedFrame | my-react-app/src/TennisData.jsx:212-241 | the same frame twice in a row: the state after the second is the state after the first with the message count one higher, and nothing else changed |
| EngineProps.Transport | my-react-app/src/TennisData.jsx:341-375 | `Open` connects; `Error` shows the polling error and adds one 30-second poll timer; a close disconnects and adds a timer unless its code is 1000 (normal closure); held data is untouched |
| EngineProps.TimersNeverDecrease | my-react-app/src/TennisData.jsx:361-373 | over any sequence of events the number of started poll timers never decreases |
| TennisView.FormatTimeStatus | my-react-app/src/TennisData.jsx:459-468 | "1".."5" map to In Progress, Not Started, Finished, Postponed, Cancelled; the result is "Unknown" exactly when the status is not one of those five strings |
| TennisView.TimeStatusInjective | my-react-app/src/TennisData.jsx:459-468 | two statuses with the same known name are the same status |
| TennisView.CardStatus | my-react-app/src/TennisData.jsx:530-541 | a card whose `time_status` is missing or falsy shows "Unknown" |
| TennisView.MainView | my-react-app/src/TennisData.jsx:405-622 | the loading view iff loading with nothing held; else the error view iff a non-empty error, showing it; a list of cards shows exactly the held array, none of whose cards throws; a crash comes from a non-array or from a card that throws |
| TennisView.HeldMatchesShown | my-react-app/src/TennisData.jsx:446-622 | in a reachable state with no error, a held array is non-empty and shows as its cards iff no card throws; the render crashes iff the held value is not an array or some card throws; never "no matches" |
| TennisView.NumericNameCrashes | my-react-app/src/TennisData.jsx:471-479 | a card whose home player's name is a number throws at `name.replace` |
| TennisView.NullSetCrashes | my-react-app/src/TennisData.jsx:580-586 | a card with a `null` set score throws at `setScore.home` |
| TennisView.BareCardRenders | my-react-app/src/TennisData.jsx:528-545 | a match with no `betsapi_data` renders from the `|| {}` defaults without throwing |
| TennisView.SocketErrorHidesList | my-react-app/src/TennisData.jsx:349-352 | a socket error puts up the error screen with the polling message while the matches stay held |
| TennisView.FetchClearsErrorScreen | my-react-app/src/TennisData.jsx:143-148 | a fetch completing with a non-`null` body takes down the error screen |
| TennisView.OverlayVisible | my-react-app/src/TennisData.jsx:406-504 | the overlay is forced on for the loading screen, follows the toggle on the list, and is absent from the error and "no matches" screens |
| TennisView.DebugPanel | my-react-app/src/TennisData.jsx:496-504 | the overlay renders exactly when visible |
| TennisView.RenderedPanel | my-react-app/src/TennisData.jsx:406-504 | a render shows the overlay iff it is on the loading screen, or on the list with the toggle on |
| TennisView.DebugPanelFigures | my-react-app/src/WebSocketDebugOverlay.jsx:86-103 | in a reachable state the status has a known colour, the efficiency is within 0..100 percent, and the last message shown is at most 103 characters |
| TennisView.LongFrameSummary | my-react-app/src/WebSocketDebugOverlay.jsx:57-60 | after a frame of more than 100 characters the overlay shows that frame's first 100 characters and `...` |
| PlayerName.Collapse | my-react-app/src/MatchDetail.jsx:47 | after collapsing, no run of white space is longer than one plain space; the visible characters are unchanged; a leading space stays a leading space |
| PlayerName.CollapseWords | my-react-app/src/MatchDetail.jsx:47 | the collapse keeps the words (maximal runs of non-space characters) of its input, in order |
| PlayerName.CollapseLast | my-react-app/src/MatchDetail.jsx:47 | the collapse ends in white space exactly when its input does |
| PlayerName.SingleSpacedDetermined | my-react-app/src/MatchDetail.jsx:47 | two single-spaced texts with the same words and white space at the same ends are equal |
| PlayerName.CollapseCharacterized | my-react-app/src/MatchDetail.jsx:47 | the collapse is the only single-spaced text with the input's words and white space at the same ends as the input |
| PlayerName.CollapseSingleSpaced | my-react-app/src/MatchDetail.jsx:47 | a single-spaced text passes through the collapse unchanged |
| PlayerName.StripGroups | my-react-app/src/MatchDetail.jsx:48 | the result uses only characters of the input and has no `(` followed later by `)` |
| PlayerName.StripGroupsNoGroup | my-react-app/src/MatchDetail.jsx:48 | a text with no `(` followed later by `)` passes through unchanged |
| PlayerName.StripGroupsSplit | my-react-app/src/MatchDetail.jsx:48 | `a(g)b`, with no `(` in `a` and no `)` in `g`, strips to `a` followed by `b` stripped |
| PlayerName.GroupSplits | my-react-app/src/MatchDetail.jsx:48 | every text with a `(` followed later by `)` has that shape, so with the two lemmas above the stripped text is determined |
| PlayerName.Trim | my-react-app/src/MatchDetail.jsx:49 | the result is a contiguous slice of the input with no white space at either end, and everything cut off on either side is white space |
| PlayerName.Clean | my-react-app/src/MatchDetail.jsx:46-49 | the cleaned name has no white space at either end and no `(` followed later by `)` |
| PlayerName.CleanTidy | my-react-app/src/MatchDetail.jsx:46-49 | a name with no `(`, no white space at either end and single plain spaces between words comes back unchanged |
| PlayerName.FormatPlayerName | my-react-app/src/MatchDetail.jsx:43-50 | a missing or falsy name gives "Unknown Player"; a non-empty string gives its cleaned text; any other truthy value throws; every result has no edge white space and no parenthesised group (the same function is at my-react-app/src/TennisData.jsx:471-479) |
| MatchDetail.HttpErrorMessage | my-react-app/src/MatchDetail.jsx:18-19 | the thrown message is `HTTP error! Status: ` followed by the status in decimal |
| MatchDetail.PageStep | my-react-app/src/MatchDetail.jsx:12-32 | starting sets loading; an arriving body replaces the match and clears the error; a failure keeps the match and sets the error; both end loading |
| MatchDetail.SelectView | my-react-app/src/MatchDetail.jsx:63-230 | the loading view iff loading; else the error view iff a non-empty error, showing it; else not-found iff the match is falsy; else the crash iff rendering the details throws, and the details otherwise |
| MatchDetail.FetchOutcomeView | my-react-app/src/MatchDetail.jsx:12-101 | after a fetch, a failure with a message shows that message, a truthy body shows the detail (or the crash, when rendering it throws), a falsy body shows not-found |
| MatchDetail.NumericNameDetailCrashes | my-react-app/src/MatchDetail.jsx:112 | a match whose home player's name is the number 7 makes the page throw |
| MatchDetail.NumericHomeNameThrows | my-react-app/src/MatchDetail.jsx:108-113 | an event whose home name is a number fails to format |
| MatchDetail.ObjectOptionCrashes | my-react-app/src/MatchDetail.jsx:217-220 | a category holding a market whose option value is an object throws |
| MatchDetail.BareDetailRenders | my-react-app/src/MatchDetail.jsx:103-230 | an empty match renders from the defaults: names, league, score, points, no sets, no markets |
| MatchDetail.InplayEvent | my-react-app/src/MatchDetail.jsx:104-107 | the event record the page reads is always truthy, defaulting to `{}` |
| MatchDetail.PairText | my-react-app/src/MatchDetail.jsx:115-117 | a missing or falsy `ss` (or `points`) shows as `0-0`; a truthy one shows as itself, so the cell is never blank |
| MatchDetail.SetCell | my-react-app/src/MatchDetail.jsx:188 | a cell shows the side's value when present and truthy, otherwise `0`; it never shows a falsy value |
| MatchDetail.SetRow | my-react-app/src/MatchDetail.jsx:186-198 | one truthy cell per entry of `scores`, in entry order |
| MatchDetail.FirstPartner | my-react-app/src/MatchDetail.jsx:185 | the shown name is the longest prefix without `/`, and it stops at a `/` or at the end |
| MatchDetail.KeepListed | my-react-app/src/MatchDetail.jsx:124-128 | an entry is kept iff its value is truthy and has at least one key |
| MatchDetail.KeepListedAppend | my-react-app/src/MatchDetail.jsx:124-128 | the filter keeps the original order: it distributes over concatenation |
| MatchDetail.KeepListedAll | my-react-app/src/MatchDetail.jsx:124-128 | when every category is listable, all are kept, unchanged |
| MatchDetail.GroupedMarkets | my-react-app/src/MatchDetail.jsx:121-129 | exactly the entries of a truthy `grouped_markets` whose value is non-null with at least one key, values unchanged; none when it is missing or falsy |
| MatchDetail.Markets | my-react-app/src/MatchDetail.jsx:205-237 | "No markets available" iff no category is listed; otherwise the markets section with exactly the listed categories |
| Overlay.SplitUptime | my-react-app/src/WebSocketDebugOverlay.jsx:29-32 | `hours*3600 + minutes*60 + seconds` is the whole seconds elapsed, with minutes and seconds below 60 |
| Overlay.Pad2 | my-react-app/src/WebSocketDebugOverlay.jsx:33 | a zero-padded field is all digits, at least two long, exactly two below 100, and reads back as the number |
| Overlay.UptimeDisplay | my-react-app/src/WebSocketDebugOverlay.jsx:33 | the display has colons in the two fixed positions from the end and is at least 8 characters |
| Overlay.UptimeRoundTrip | my-react-app/src/WebSocketDebugOverlay.jsx:29-33 | reading the display back gives the whole seconds elapsed, whatever the number of hour digits |
| Overlay.FormatLastMessage | my-react-app/src/WebSocketDebugOverlay.jsx:42-61 | `None` for falsy; a string of at most 100 characters unchanged, a longer one cut to 100 plus `...`; `Array with N items`; an object's first three keys joined by `, `, with `...` iff it has more than three |
| Overlay.EfficiencyOf | my-react-app/src/WebSocketDebugOverlay.jsx:103 | `0%` exactly when no messages arrived; otherwise the share of messages that caused an update, as a percentage |
| Overlay.EfficiencyBounded | my-react-app/src/WebSocketDebugOverlay.jsx:103 | with no more updates than messages the figure lies in 0..100 |
| Overlay.StatusColor | my-react-app/src/WebSocketDebugOverlay.jsx:63-68 | the colour is `#999` exactly when the status is none of connected, disconnected, error, connecting |
| Overlay.Render | my-react-app/src/WebSocketDebugOverlay.jsx:26 | the overlay renders nothing iff not visible; when shown, its colour, efficiency and last message are the formatted figures |
| PyOps.KeyOf | main_api.py:141 | `True` and `False` stand for the keys 1 and 0; hashability is kept; other values are their own key |
| PyOps.Contains | aggregator/sports/tennis/market_grouper.py:40 | `in` raises on `None`, booleans and numbers; on a dict it tests the keys, on a list the elements |
| PyOps.Index | aggregator/sports/tennis/market_grouper.py:40-41 | `c[key]` succeeds exactly on a dict holding the key, giving its value |
| PyOps.Get | main_api.py:130 | `.get` succeeds exactly on a dict, giving the value or `None` |
| PyOps.Copy | aggregator/sports/tennis/market_grouper.py:37 | `.copy()` succeeds exactly on dicts and lists and gives an equal value |
| MarketGrouper.Add | aggregator/sports/tennis/market_grouper.py:79-83 | adding an item makes its key present; distinct keys and non-empty lists are kept |
| MarketGrouper.AddBucket | aggregator/sports/tennis/market_grouper.py:79-83 | adding an item appends it to its key's list and leaves every other key's list unchanged |
| MarketGrouper.AddTotal | aggregator/sports/tennis/market_grouper.py:79-83 | adding an item grows the number of grouped markets by exactly one |
| MarketGrouper.Selected | aggregator/sports/tennis/market_grouper.py:70-83 | the markets selected for a key are valid inputs whose group is that key |
| MarketGrouper.GroupItems | aggregator/sports/tennis/market_grouper.py:67-83 | a grouping has distinct keys and no empty list |
| MarketGrouper.GroupItemsSucceeds | aggregator/sports/tennis/market_grouper.py:73-79 | grouping raises exactly when some dict market with a `group` has an unhashable group (a list or dict) |
| MarketGrouper.GroupItemsBuckets | aggregator/sports/tennis/market_grouper.py:70-83 | each group's list is exactly its valid markets in their original relative order; non-dicts and group-less markets are dropped |
| MarketGrouper.GroupItemsTotal | aggregator/sports/tennis/market_grouper.py:67-102 | the grouping holds as many markets as the input has valid ones |
| MarketGrouper.GroupItemsKeys | aggregator/sports/tennis/market_grouper.py:67-102 | every key maps to a non-empty list of input markets whose group is that key |
| MarketGrouper.BucketAt | aggregator/sports/tennis/market_grouper.py:79-83 | with distinct keys, the list stored at a position is the list for its key |
| MarketGrouper.Tag | aggregator/sports/tennis/market_grouper.py:98-99 | a dict market is copied with `market_id` set to its key; its group and validity are unchanged |
| MarketGrouper.TagOthers | aggregator/sports/tennis/market_grouper.py:98-99 | tagging changes no member but `market_id` |
| MarketGrouper.Tagged | aggregator/sports/tennis/market_grouper.py:86-100 | a plain map of `Tag` over the dict: the i-th entry becomes its value tagged with its key |
| MarketGrouper.GroupMarketsByName | aggregator/sports/tennis/market_grouper.py:57-102 | a list is grouped as is; a dict is grouped after tagging; any other value raises |
| MarketGrouper.Embed | main_api.py:77-80 | a plain map over the groups: the grouping, as served, has one member per group, in insertion order, keyed by its JSON key text, each the group's list |
| MarketGrouper.DistinctKeysPairwise | aggregator/sports/tennis/market_grouper.py:73-79 | no two groups of a grouping are the same Python key |
| MarketGrouper.StringKeysDistinctTexts | aggregator/sports/tennis/market_grouper.py:73-79 | when every group is a string, no two groups are written under the same JSON key |
| MarketGrouper.TextClash | aggregator/sports/tennis/market_grouper.py:73-79 | the groups `1` and `"1"` are two Python keys written under the one JSON key `"1"` |
| MarketGrouper.ProcessMatch | aggregator/sports/tennis/market_grouper.py:35-53 | values other than dicts and lists raise; a list passes unchanged unless it contains `"rapid_data"`, which raises; a dict stays a dict |
| MarketGrouper.ProcessMatchShape | aggregator/sports/tennis/market_grouper.py:37-51 | a processed match equals its input unless it carries markets; then it is the input with `grouped_markets` set to the grouping |
| MarketGrouper.ProcessMatchOthers | aggregator/sports/tennis/market_grouper.py:37-51 | every key other than `grouped_markets` reads the same in the output as in the input |
| MarketGrouper.ProcessMatches | aggregator/sports/tennis/market_grouper.py:23-55 | succeeds iff every match does; same length; the i-th output is the i-th input processed |
| MarketGrouper.GroupMarkets | aggregator/sports/tennis/market_grouper.py:104-115 | a fresh grouper answers as `process_matches`: it succeeds iff every match processes, with the same length and the i-th output from the i-th input |
| Server.RawMatches | main_api.py:129-131 | `data.get("matches", [])` gives `[]` for a dict without the key and the value itself when it has a length (list, dict or string); anything but a dict, or a value with no length, raises |
| Server.Iterate | main_api.py:134 | iterating a list visits its elements |
| Server.CacheLoop | main_api.py:137-144 | a completed loop met only dicts; no existing entry is dropped |
| Server.CacheLoopStores | main_api.py:137-144 | after a completed loop every match with a truthy, hashable id is cached under it, stamped with this refresh's clock; every changed entry holds a match with that id |
| Server.Evict | main_api.py:146-150 | an entry is removed exactly when its age exceeds 3600 seconds; the others are unchanged |
| Server.Processed | main_api.py:126-134 | any status but 200, an unparseable body or a body that is not a dict yields no processed list; a 200 dict without `matches` yields the empty list; one whose `matches` is a list yields the processed list exactly when every match processes; one whose `matches` is a dict or a string yields the empty list when it is empty and nothing otherwise, since its keys or characters cannot be processed |
| Server.Refresh | main_api.py:123-160 | without a processed list nothing changes; with one, the list is replaced and the cache updated and cleaned, unless the cache loop raises part-way, which keeps its writes and the old list |
| Server.RefreshCaches | main_api.py:136-153 | a refresh whose processed list passes the cache loop, even one equal to the list held, makes that list current and caches each of its matches with a usable id at this refresh's clock |
| Server.RefreshCachesReachable | main_api.py:123-144 | a 200 reply listing one match with id "m1" is processed, passes the cache loop, and its match has a usable id, so some refresh meets RefreshCaches' premises |
| Server.CacheLoopDicts | main_api.py:137-144 | the cache loop stores only dicts: a cache holding only dicts still does after the loop, whether or not it completes |
| Server.RefreshInv | main_api.py:123-153 | a refresh keeps every listed match and every cached match a dict |
| Server.BootInv | main_api.py:33-35 | the empty list and the empty cache the service starts with satisfy the invariant |
| Server.FindCurrent | main_api.py:57-59 | a match found in the current list is from that list |
| Server.FindCurrentFirst | main_api.py:57-59 | the scan returns the first match whose `match_id` equals the id |
| Server.FindCurrentNone | main_api.py:57-59 | when no match answers, the scan finds nothing |
| Server.MatchDetails | main_api.py:52-70 | a served match is from the current list or is a cache entry younger than 3600 seconds |
| Server.CurrentBeforeCache | main_api.py:56-63 | a match in the current list is served from the list, whatever the cache holds |
| Server.CacheServedIff | main_api.py:61-70 | with no listed match answering, a cached match is served iff it is younger than 3600 seconds; otherwise the reply is 404 |
| Server.LookupNeverFails | main_api.py:52-70 | when every listed match is a dict, a lookup never raises |
| Server.ServedDict | main_api.py:52-70 | in a state the service can reach, a served match is a dict, whether it comes from the list or from the cache |
| Server.FirstAnswer | main_api.py:57-59 | the index of the first answering match, with none answering before it |
| Server.TtlBoundary | main_api.py:65 | an entry exactly 3600 seconds old survives the clean-up but is no longer served |
| Server.TennisMatches | main_api.py:72-80 | the payload holds the current list unchanged under `matches` and the stamp under `timestamp` |
| EndToEnd.ListOffered | main_api.py:72-80 | the client accepts the list payload exactly when the service holds at least one match, and then takes exactly that list |
| EndToEnd.ListReachesClient | my-react-app/src/TennisData.jsx:84-139 | a client holding nothing shows the served list after one fetch; a client holding matches keeps them while the served list is empty |
| EndToEnd.PageEventOf | my-react-app/src/MatchDetail.jsx:16-28 | a 200 reply delivers its body; any other reply fails with `HTTP error! Status: ` and its code |
| EndToEnd.DetailPageView | main_api.py:52-70 | asking for a match the service holds, in its list or its cache, shows the detail view, or the crash when rendering it throws; asking for one it lacks shows the 404 message |
| EndToEnd.ReplyView | my-react-app/src/MatchDetail.jsx:17-101 | a reply with a dict shows the details or the crash; a 404 reply shows `HTTP error! Status: 404` |
| EndToEnd.FoundView | my-react-app/src/MatchDetail.jsx:17-30 | a successful reply shows not-found for a falsy body, else the crash iff rendering throws, else the details |
| EndToEnd.EmbedCategoryThrows | my-react-app/src/MatchDetail.jsx:209-220 | a served category throws on the page iff one of its markets is `null` or has an option React cannot render |
| EndToEnd.EmbedAllCategoriesThrow | my-react-app/src/MatchDetail.jsx:209-220 | the same, for every category of a grouping at once |
| EndToEnd.GroupedOfEmbed | my-react-app/src/MatchDetail.jsx:121-129 | a served grouping with no empty group and distinct key texts is listed whole, in order, under distinct names, on the match page |
| EndToEnd.GroupedShown | aggregator/sports/tennis/market_grouper.py:40-51 | when no two groups share a JSON key text, the match page lists every group the grouper produced for a match, in order, unchanged and under distinct names; a listed group throws iff one of its markets does |
| EndToEnd.GroupedShownReachable | aggregator/sports/tennis/market_grouper.py:40-51 | a match carrying one market of group "Set 1" is processed, carries markets, and its grouping has distinct key texts, so some match meets GroupedShown's premises |
| Json.SetKeyLookup | aggregator/sports/tennis/market_grouper.py:51 | after `d[k] = v`, `d[k]` is `v` and every other key reads as before |
| Json.Entries | my-react-app/src/MatchDetail.jsx:124 | `Object.entries` throws on `null`, gives an object's members, a list's or string's indexed elements, and nothing for booleans and numbers |
| Digits.NatStrValue | my-react-app/src/WebSocketDebugOverlay.jsx:33 | the decimal text of a number reads back as that number |

## Left out

- Network and timers: `fetch`, `WebSocket`, `setInterval`, `requests.get`, FastAPI routing, static files, and the server's WebSocket send loop and thread. They appear only as events and inputs.
- Process supervision in `start_tennis_system.py` and the router in `App.js`. Neither contains logic to model.
- Markup and hooks:
  - JSX markup, CSS and React hook mechanics;
  - `renderCount`, `useMemo` and the `window.tennisDebug` global;
  - console logging and the Alt+D toggle.
- Whether the socket effect re-runs when `updateCount` changes. That is React scheduling. A re-mount is covered only as a sequence of events: a fetch, then a close whose code is a parameter.
- The close code of `ws.close()` in the effect cleanup. The browser decides it, so it is a parameter of `Close`.
- Dates and time zones: `toLocaleTimeString`, `lastUpdated`, the fixed UTC-4 offset, `formatTimestamp`, and the server's ISO timestamp, which is a parameter.
- Floating point: the efficiency's `toFixed(1)` and the messages-per-minute rate. Numbers in JSON are integers only.
- The timestamp of a snapshot. A snapshot keeps only its `matches`.
- `.length` coerced from a non-number `length` member of an object.
- Key order of JavaScript objects with integer-like keys, and objects with duplicate keys.
- Strings are sequences of code points, not UTF-16 units.
- The overlay's `connectionTime` row. A negative elapsed time (clock skew) is outside `nat`.
- The `statusColor` lookup on inherited keys such as `toString`.
- PlayerName.FormatPlayerName: idempotence is not claimed. Removing a parenthesised group can leave a double space, so a second pass can change the name.
- Server.Iterate: for a dict or string of matches it gives the keys or characters. Processing any of those raises at once, which the model reflects, but the ensures speaks only of lists; the outcome for a dict or string is stated by Server.Processed.
- Server.LookupNeverFails: a refresh and a request are each taken as one atomic step. The service runs `get_match_details` in FastAPI's thread pool and `process_tennis_data` in its own thread (main_api.py:167), so a clean-up's `del match_cache[key]` (main_api.py:150) can fall between the `in` test (main_api.py:62) and the index (main_api.py:63); that request then raises KeyError and gets a 500 where the model answers 404. Interleavings are not modelled.
- Server.FindCurrent: the ensures states membership of the found match, not its position. Its position is stated by Server.FindCurrentFirst.
- MatchDetail.GroupedMarkets: the client's re-assignment `groupedMarkets[category] = markets` would merge duplicate categories. A grouping's Python keys are distinct, but its JSON key texts need not be (see MarketGrouper.TextClash).
- EndToEnd.GroupedOfEmbed: promised only when the groups' JSON key texts are distinct. Groups `1` and `"1"`, `True` and `"true"`, or `None` and `"null"` are written under one key, and the browser's `JSON.parse` keeps only one of them; duplicate keys are not modelled.
- EndToEnd.GroupedShown: promised only when the groups' JSON key texts are distinct, for the reason above. This holds whenever every group is a string (MarketGrouper.StringKeysDistinctTexts).
- TennisView.MainView: a card expanded by a click shows `match.match_id` as a child, which throws for an object id. The expanded card is UI state and is not modelled; `formatTimestamp` and `toLocaleString` never throw and are not modelled either.
- The `match_id` values the service compares with a request. Only string ids can answer, and a cache key that is a number never matches a request path.
- Serialization by FastAPI. A Python dict key that is a number, boolean or `None` is written with its JSON text, as `Embed` does.

=== FILE: digits.dfy ===
/** Decimal rendering of integers, as JavaScript's `String(n)` and Python's
    `str(n)` produce it for whole numbers, and the digit-value reading that
    inverts it. */
module Digits {

  predicate IsDigit(c: char) {
    '0' <= c <= '9'
  }

  predicate AllDigits(s: string) {
    forall i :: 0 <= i < |s| ==> IsDigit(s[i])
  }

  function DigitChar(d: nat): (c: char)
    requires d < 10
    ensures IsDigit(c)
    ensures c as int - '0' as int == d
  {
    (('0' as int) + d) as char
  }

  /** The decimal digits of `n`, most significant first, without leading zeros. */
  function NatStr(n: nat): (s: string)
    ensures |s| > 0
    ensures AllDigits(s)
    decreases n
  {
    if n < 10 then [DigitChar(n)] else NatStr(n / 10) + [DigitChar(n % 10)]
  }

  /** The number a string of decimal digits denotes. */
  function DigitsValue(s: string): nat
    requires AllDigits(s)
  {
    if |s| == 0 then 0
    else DigitsValue(s[..|s| - 1]) * 10 + (s[|s| - 1] as int - '0' as int)
  }

  /** Reading the rendering back gives the number: the rendering is lossless. */
  lemma {:induction false} NatStrValue(n: nat)
    ensures DigitsValue(NatStr(n)) == n
    decreases n
  {
    if n >= 10 {
      NatStrValue(n / 10);
      var s := NatStr(n);
      assert s[..|s| - 1] == NatStr(n / 10);
    }
  }

  lemma NatStrInjective(n: nat, m: nat)
    requires NatStr(n) == NatStr(m)
    ensures n == m
  {
    NatStrValue(n);
    NatStrValue(m);
  }

  /** Renders a (possibly negative) whole number. */
  function IntStr(n: int): (s: string)
    ensures |s| > 0
    ensures n >= 0 ==> s == NatStr(n)
    ensures n < 0 ==> s == "-" + NatStr(-n)
  {
    if n < 0 then "-" + NatStr(-n) else NatStr(n)
  }

  /** Where two splittings of one string disagree on where the first part
      ends, the shorter split's remainder starts with the longer part's next
      character. */
  lemma PrefixNext(x: string, y: string, s: string, t: string)
    requires x + s == y + t
    requires |x| < |y|
    ensures |s| > 0 && s[0] == y[|x|]
  {
    assert (x + s)[|x|] == (y + t)[|x|];
  }

  /** A run of digits followed by something that does not start with a digit
      can be split off in only one way. */
  lemma DigitRunUnique(x: string, y: string, s: string, t: string)
    requires AllDigits(x) && AllDigits(y)
    requires |s| == 0 || !IsDigit(s[0])
    requires |t| == 0 || !IsDigit(t[0])
    requires x + s == y + t
    ensures x == y && s == t
  {
    if |x| < |y| {
      PrefixNext(x, y, s, t);
      assert false;
    } else if |y| < |x| {
      PrefixNext(y, x, t, s);
      assert false;
    } else {
      assert x == (x + s)[..|x|] == (y + t)[..|y|] == y;
    }
  }

  /** Text behind a leading minus sign. */
  lemma DropMinus(a: string, b: string, s: string, t: string)
    requires "-" + a + s == "-" + b + t
    ensures a + s == b + t
  {
    assert "-" + a + s == "-" + (a + s);
    assert "-" + b + t == "-" + (b + t);
    assert a + s == ("-" + (a + s))[1..];
  }

  lemma NegativeUnique(n: nat, m: nat, s: string, t: string)
    requires |s| == 0 || !IsDigit(s[0])
    requires |t| == 0 || !IsDigit(t[0])
    requires "-" + NatStr(n) + s == "-" + NatStr(m) + t
    ensures n == m && s == t
  {
    DropMinus(NatStr(n), NatStr(m), s, t);
    DigitRunUnique(NatStr(n), NatStr(m), s, t);
    NatStrInjective(n, m);
  }

  /** A rendering starts with a minus sign exactly when the number is negative. */
  lemma IntStrHead(n: int, s: string)
    ensures (IntStr(n) + s)[0] == '-' <==> n < 0
  {
    var r := IntStr(n);
    assert (r + s)[0] == r[0];
    if n >= 0 {
      assert IsDigit(NatStr(n)[0]);
    }
  }

  /** Distinct whole numbers render differently, and a rendering followed by
      a non-digit can be read back in one way only. */
  lemma IntStrUnique(n: int, m: int, s: string, t: string)
    requires |s| == 0 || !IsDigit(s[0])
    requires |t| == 0 || !IsDigit(t[0])
    requires IntStr(n) + s == IntStr(m) + t
    ensures n == m && s == t
  {
    IntStrHead(n, s);
    IntStrHead(m, t);
    if n < 0 && m < 0 {
      NegativeUnique(-n, -m, s, t);
    } else if n >= 0 && m >= 0 {
      DigitRunUnique(NatStr(n), NatStr(m), s, t);
      NatStrInjective(n, m);
    }
  }
}

=== FILE: end_to_end.dfy ===
/** The service and the client together: what the list page and the detail
    page make of what the API serves. The HTTP transport between them is
    taken as delivering the payload unchanged. */
module EndToEnd {
  import opened Wrappers
  import opened Json
  import opened Engine
  import opened EngineProps
  import opened MatchDetail
  import opened MarketGrouper
  import opened Server

  /** The list payload is accepted by the client exactly when the service
      holds at least one match. */
  lemma ListOffered(st: ServerState, stamp: string)
    ensures Offered(TennisMatches(st, stamp)).Some? <==> |st.matches| > 0
    ensures |st.matches| > 0 ==> Offered(TennisMatches(st, stamp)) == Some(Arr(st.matches))
  {
  }

  /** A client holding nothing shows the service's list once a fetch of it
      completes; a client holding matches keeps them while the service's
      list is empty. */
  lemma ListReachesClient(st: ServerState, stamp: string, s: State, clockMs: nat)
    ensures |st.matches| > 0 && s.data.None? ==>
              Step(s, HttpOk(TennisMatches(st, stamp), clockMs)).data == Some(Snapshot(Arr(st.matches)))
    ensures |st.matches| == 0 && HasData(s) ==>
              Step(s, HttpOk(TennisMatches(st, stamp), clockMs)).data == s.data
  {
    var body := TennisMatches(st, stamp);
    ListOffered(st, stamp);
    if |st.matches| > 0 {
      FetchReplaces(s, body, clockMs);
    } else if HasData(s) {
      NeverRegress(s, HttpOk(body, clockMs));
    }
  }

  /** What the detail page's fetch makes of a reply: a body on 200, else the
      thrown `HTTP error! Status: ...` message. */
  function PageEventOf(r: Reply): (e: PageEvent)
    ensures r.Found? <==> e.Loaded?
    ensures r.Found? ==> e == Loaded(r.data)
    ensures !r.Found? ==> e == Failed(HttpErrorMessage(StatusCode(r)))
  {
    match r
    case Found(data) => Loaded(data)
    case _ => Failed(HttpErrorMessage(StatusCode(r)))
  }

  /** The detail page after asking the service for `id`: the match when the
      service has one, from its list or its cache (or the crash, when
      rendering it throws), the 404 message when it has none. */
  lemma DetailPageView(p: Page, st: ServerState, id: string, now: real)
    requires ServerInv(st)
    ensures var r := MatchDetails(st, id, now);
      var v := SelectView(PageStep(p, PageEventOf(r)));
      && (r.Found? ==> v == if DetailThrows(r.data) then DetailCrash else Detail)
      && (r.NotFound? ==> v == ErrorView(HttpErrorMessage(404)))
  {
    LookupNeverFails(st, id, now);
    ServedDict(st, id, now);
    ReplyView(p, MatchDetails(st, id, now));
  }

  /** The detail page after any reply the service can give. */
  lemma ReplyView(p: Page, r: Reply)
    requires !r.InternalError?
    ensures var v := SelectView(PageStep(p, PageEventOf(r)));
      && (r.Found? && r.data.Obj? ==> v == if DetailThrows(r.data) then DetailCrash else Detail)
      && (r.NotFound? ==> v == ErrorView(HttpErrorMessage(404)))
  {
    if r.Found? {
      FoundView(p, r.data);
    } else {
      assert PageEventOf(r) == Failed(HttpErrorMessage(404));
      FetchOutcomeView(p, Failed(HttpErrorMessage(404)));
    }
  }

  /** A truthy body shows the details, or the crash when they throw; a falsy
      one shows "Match Not Found". */
  lemma FoundView(p: Page, data: Json)
    ensures SelectView(PageStep(p, PageEventOf(Found(data)))) ==
              if !JsTruthy(data) then View.NotFound else if DetailThrows(data) then DetailCrash else Detail
  {
    assert PageEventOf(Found(data)) == Loaded(data);
    FetchOutcomeView(p, Loaded(data));
  }

  /** Every category of a non-empty grouping is listable on the detail page. */
  lemma EmbedListed(g: Grouping, i: nat)
    requires i < |g| && |g[i].1| > 0
    ensures Listed(Embed(g).members[i].1)
  {
  }

  /** A successful grouping has no empty category. */
  lemma GroupingNonEmpty(markets: Json)
    requires GroupMarketsByName(markets).Success?
    ensures var g := GroupMarketsByName(markets).value;
      forall i :: 0 <= i < |g| ==> |g[i].1| > 0
  {
  }

  /** Setting `grouped_markets` to an embedded grouping with no empty
      category, whose groups have distinct key texts, makes the page list
      exactly that grouping's categories, under pairwise distinct names (so
      the browser's `JSON.parse` has no duplicate key to merge). */
  lemma GroupedOfEmbed(ps: seq<(string, Json)>, g: Grouping)
    requires forall i :: 0 <= i < |g| ==> |g[i].1| > 0
    requires DistinctTexts(g)
    ensures var listed := GroupedMarkets(Obj(SetKey(ps, "grouped_markets", Embed(g))));
      && listed == Embed(g).members
      && forall i, j :: 0 <= i < j < |listed| ==> listed[i].0 != listed[j].0
  {
    var em := Embed(g);
    MemberAfterSet(ps, "grouped_markets", em);
    GroupedOfObj(Obj(SetKey(ps, "grouped_markets", em)), em);
    EmbedAllListed(g);
    KeepListedAll(em.members);
  }

  /** A dict under `grouped_markets` is filtered member by member. */
  lemma GroupedOfObj(record: Json, gm: Json)
    requires Member(record, "grouped_markets") == Some(gm) && gm.Obj?
    ensures GroupedMarkets(record) == KeepListed(gm.members)
  {
  }

  lemma MemberAfterSet(ps: seq<(string, Json)>, k: string, v: Json)
    ensures Member(Obj(SetKey(ps, k, v)), k) == Some(v)
  {
    SetKeyLookup(ps, k, v, k);
  }

  lemma EmbedAllListed(g: Grouping)
    requires forall i :: 0 <= i < |g| ==> |g[i].1| > 0
    ensures forall i :: 0 <= i < |Embed(g).members| ==> Listed(Embed(g).members[i].1)
  {
    forall i | 0 <= i < |Embed(g).members|
      ensures Listed(Embed(g).members[i].1)
    {
      EmbedListed(g, i);
    }
  }

  /** An embedded category throws exactly when one of its markets does. */
  lemma EmbedCategoryThrows(g: Grouping, i: nat)
    requires i < |g|
    ensures CategoryThrows(Embed(g).members[i].1) <==>
              exists j :: 0 <= j < |g[i].1| && MarketThrows(g[i].1[j])
  {
    var xs := g[i].1;
    assert Embed(g).members[i].1 == Arr(xs);
    var es := Entries(Arr(xs)).value;
    assert forall j :: 0 <= j < |es| ==> es[j].1 == xs[j];
  }

  lemma EmbedAllCategoriesThrow(g: Grouping)
    ensures forall i :: 0 <= i < |g| ==>
              (CategoryThrows(Embed(g).members[i].1) <==> exists j :: 0 <= j < |g[i].1| && MarketThrows(g[i].1[j]))
  {
    forall i | 0 <= i < |g|
      ensures CategoryThrows(Embed(g).members[i].1) <==>
                exists j :: 0 <= j < |g[i].1| && MarketThrows(g[i].1[j])
    {
      EmbedCategoryThrows(g, i);
    }
  }

  /** The detail page lists every category the grouper produced for a match,
      in the grouper's order, unchanged and under distinct names, provided
      no two of its groups are written as the same JSON key; a listed
      category throws exactly when one of its markets has an option React
      cannot render. */
  lemma GroupedShown(m: Json)
    requires ProcessMatch(m).Success? && CarriedMarkets(m).Some?
    requires DistinctTexts(GroupMarketsByName(CarriedMarkets(m).value).value)
    ensures var g := GroupMarketsByName(CarriedMarkets(m).value).value;
      var listed := GroupedMarkets(ProcessMatch(m).value);
      && listed == Embed(g).members
      && (forall i, j :: 0 <= i < j < |listed| ==> listed[i].0 != listed[j].0)
      && forall i :: 0 <= i < |listed| ==>
           (CategoryThrows(listed[i].1) <==> exists j :: 0 <= j < |g[i].1| && MarketThrows(g[i].1[j]))
  {
    ProcessMatchShape(m);
    var markets := CarriedMarkets(m).value;
    var g := GroupMarketsByName(markets).value;
    GroupingNonEmpty(markets);
    GroupedOfEmbed(m.members, g);
    EmbedAllCategoriesThrow(g);
  }

  /** `GroupedShown` speaks of real matches: one carrying a single market
      meets its requires. */
  lemma GroupedShownReachable()
    ensures var m := Obj([("rapid_data", Obj([("raw_odds_data", Obj([("markets", Arr([Obj([("group", Str("Set 1"))])]))]))]))]);
      && ProcessMatch(m).Success? && CarriedMarkets(m).Some?
      && DistinctTexts(GroupMarketsByName(CarriedMarkets(m).value).value)
  {
    var market := Obj([("group", Str("Set 1"))]);
    var markets := Arr([market]);
    var raw := Obj([("markets", markets)]);
    var rd := Obj([("raw_odds_data", raw)]);
    var m := Obj([("rapid_data", rd)]);
    assert Valid(market);
    assert GroupItems([market]).Success?;
    assert GroupMarketsByName(markets).Success?;
    assert CarriedMarkets(m) == Some(markets);
  }
}

=== FILE: engine.dfy ===
/** The live scoreboard's snapshot-update policy
    (my-react-app/src/TennisData.jsx): how HTTP results, push frames and
    socket lifecycle events change what the page holds. The component's
    state and refs become one immutable record, and each handler becomes a
    case of the pure function `Step`. */
module Engine {
  import opened Wrappers
  import opened Json
  import opened Digits
  import opened Stringify

  /** The socket status shown to the user. */
  datatype Status = Disconnected | Connected | Errored {
    function Text(): string {
      match this
      case Disconnected => "disconnected"
      case Connected => "connected"
      case Errored => "error"
    }
  }

  /** What the page holds: the `matches` value of the last accepted payload.
      The capture timestamp is clock-derived and left out. */
  datatype Snapshot = Snapshot(matches: Json)

  datatype State = State(
    data: Option<Snapshot>,      // `data` state and `dataRef`
    fingerprint: string,         // `previousDataHash`
    wsMessageCount: nat,
    updateCount: nat,
    error: Option<string>,
    status: Status,
    pollTimers: nat,             // intervals started and never cleared
    loading: bool,
    lastMessage: Option<string>) // `lastWsMessage`, as the overlay receives it

  /** The state on mount. */
  const Initial := State(None, "", 0, 0, None, Disconnected, 0, true, None)

  /** Events, each handled to completion before the next. `HttpOk` is a fetch
      whose status was ok and whose body parsed; every other fetch outcome
      (non-ok status, network failure, a body that is not JSON) is `HttpFail`
      carrying the thrown message. Clock readings come with the event. */
  datatype Event =
    | FetchStart
    | HttpOk(body: Json, clockMs: nat)
    | HttpFail(message: string, clockMs: nat)
    | WsFrame(raw: string, parsed: Option<Json>)
    | Open
    | Error
    | Close(code: int)

  /** RFC 6455 section 7.4.1: status code 1000 is a normal closure. */
  const NormalClosure := 1000

  /** Fallback poll period, in milliseconds. */
  const PollIntervalMs := 30000

  /** Longest frame kept verbatim as the last message. */
  const PreviewLimit := 500

  const SocketErrorMessage := "WebSocket connection error. Falling back to polling."

  /** The message of the TypeError raised when a fetch succeeds with the body
      `null` and the handler reads `jsonData.timestamp`; its exact wording is
      the browser's. */
  const NullBodyMessage := "Cannot read properties of null (reading 'timestamp')"

  /** `x.length > 0` as JavaScript evaluates it for a parsed value. */
  predicate Populated(m: Json) {
    JsTruthy(m) && JsLength(m).Some? && JsLength(m).value > 0
  }

  /** The matches an HTTP body offers, when the handler accepts them:
      `jsonData && jsonData.matches && jsonData.matches.length > 0`. */
  function Offered(body: Json): (r: Option<Json>)
    ensures r.Some? <==> JsTruthy(body) && Member(body, "matches").Some?
                         && Populated(Member(body, "matches").value)
    ensures r.Some? ==> body.Obj? && Lookup(body.members, "matches") == r
  {
    if JsTruthy(body) && Member(body, "matches").Some? && Populated(Member(body, "matches").value)
    then Member(body, "matches")
    else None
  }

  /** The fallback test: `dataRef.current && dataRef.current.matches &&
      dataRef.current.matches.length !== 0`. */
  predicate HasData(s: State) {
    s.data.Some? && JsTruthy(s.data.value.matches) && JsLength(s.data.value.matches) != Some(0)
  }

  function Pair(home: int, away: int): Json {
    Obj([("home", Num(home)), ("away", Num(away))])
  }

  function Team(name: string, cc: string): Json {
    Obj([("name", Str(name)), ("cc", Str(cc))])
  }

  /** A placeholder match record; `time` is the clock in whole seconds,
      `String(Math.floor(Date.now() / 1000))`. */
  function Placeholder(id: string, league: string, home: string, away: string,
                       ss: string, scores: seq<(string, Json)>, clockMs: nat): Json
  {
    Obj([("match_id", Str(id)),
         ("betsapi_data", Obj([("inplayEvent", Obj([
           ("league", Team(league, "US")),
           ("time", Str(NatStr(clockMs / 1000))),
           ("time_status", Str("1")),
           ("home", Team(home, "US")),
           ("away", Team(away, "GB")),
           ("ss", Str(ss)),
           ("scores", Obj(scores))]))]))])
  }

  /** The list installed when a fetch returns no usable matches and nothing is held. */
  function EmptyFallback(clockMs: nat): Json {
    Arr([Placeholder("fallback_match_1", "Fallback Tennis League",
                     "Frontend Player 1", "Frontend Player 2", "3-2",
                     [("1", Pair(6, 4)), ("2", Pair(4, 6)), ("3", Pair(6, 2))], clockMs)])
  }

  /** The list installed when a fetch fails and nothing is held. */
  function ErrorFallback(clockMs: nat): Json {
    Arr([Placeholder("error_fallback_match", "Error Fallback League",
                     "Error Handler 1", "Error Handler 2", "1-0",
                     [("1", Pair(4, 2))], clockMs)])
  }

  /** Replace what is held by `m`, fingerprinted by `fp`. */
  function Install(s: State, m: Json, fp: string): State {
    s.(data := Some(Snapshot(m)), fingerprint := fp)
  }

  /** Install a placeholder list unless data is held. */
  function FallBack(s: State, placeholder: Json): (r: State)
    ensures r.(data := s.data, fingerprint := s.fingerprint) == s
  {
    if HasData(s) then s else Install(s, placeholder, Ser(placeholder))
  }

  /** The `try` block of `fetchData` up to the timestamp line. */
  function AcceptBody(s: State, body: Json, clockMs: nat): (r: State)
    ensures r.(data := s.data, fingerprint := s.fingerprint) == s
  {
    match Offered(body)
    case Some(m) =>
      if s.data.None? || s.fingerprint != Ser(m) then Install(s, m, Ser(m)) else s
    case None => FallBack(s, EmptyFallback(clockMs))
  }

  /** The `catch` block of `fetchData`. */
  function FetchFailed(s: State, message: string, clockMs: nat): State {
    FallBack(s.(error := Some(message)), ErrorFallback(clockMs))
  }

  /** What `setLastWsMessage` keeps of a frame. */
  function Preview(raw: string): (p: string)
    ensures |raw| <= PreviewLimit ==> p == raw
    ensures |raw| > PreviewLimit ==> |p| > PreviewLimit + 5 && p[..PreviewLimit] == raw[..PreviewLimit]
    ensures |raw| > PreviewLimit ==> p[PreviewLimit..PreviewLimit + 5] == "... ("
    ensures |raw| > PreviewLimit ==> p[PreviewLimit + 5..] == NatStr(|raw|) + " chars)"
  {
    if |raw| > PreviewLimit then raw[..PreviewLimit] + "... (" + NatStr(|raw|) + " chars)"
    else raw
  }

  /** `processWebSocketData` after the counters: the raw-text short cut,
      the parse, and the structural comparison. */
  function Frame(s: State, raw: string, parsed: Option<Json>): (r: State)
    ensures r.wsMessageCount == s.wsMessageCount && r.pollTimers == s.pollTimers
    ensures r.updateCount == s.updateCount || r.updateCount == s.updateCount + 1
  {
    if s.fingerprint != "" && s.fingerprint == raw then s
    else match parsed
      case None => s
      case Some(j) =>
        var s' :=
          if j.Arr? && |j.items| > 0 && (s.data.None? || !IsEqual(s.data.value.matches, j))
          then Install(s, j, raw).(updateCount := s.updateCount + 1)
          else s;
        s'.(loading := false)
  }

  /** One event, handled as the component handles it. */
  function Step(s: State, e: Event): (r: State)
    ensures r.pollTimers >= s.pollTimers
    ensures r.wsMessageCount == if e.WsFrame? then s.wsMessageCount + 1 else s.wsMessageCount
    ensures r.updateCount == s.updateCount || (e.WsFrame? && r.updateCount == s.updateCount + 1)
  {
    match e
    case FetchStart => s.(loading := true)
    case HttpOk(body, clockMs) =>
      var s' := AcceptBody(s, body, clockMs);
      if body.Null? then FetchFailed(s', NullBodyMessage, clockMs).(loading := false)
      else s'.(error := None, loading := false)
    case HttpFail(message, clockMs) =>
      FetchFailed(s, message, clockMs).(loading := false)
    case WsFrame(raw, parsed) =>
      Frame(s.(wsMessageCount := s.wsMessageCount + 1, lastMessage := Some(Preview(raw))), raw, parsed)
    case Open => s.(status := Connected)
    case Error =>
      s.(status := Errored, error := Some(SocketErrorMessage), pollTimers := s.pollTimers + 1)
    case Close(code) =>
      s.(status := Disconnected,
         pollTimers := if code != NormalClosure then s.pollTimers + 1 else s.pollTimers)
  }

  /** The state after a sequence of events. */
  function Run(s: State, es: seq<Event>): State
    decreases |es|
  {
    if |es| == 0 then s else Run(Step(s, es[0]), es[1..])
  }
}

=== FILE: engine_props.dfy ===
/** Properties of the snapshot-update policy of
    my-react-app/src/TennisData.jsx, stated over `Engine.Step`. */
module EngineProps {
  import opened Wrappers
  import opened Json
  import opened Stringify
  import opened Engine

  /** An event that carries no usable match list: a failed fetch, a fetch
      whose body offers no non-empty `matches`, or a frame that is not a
      non-empty array (or did not parse). */
  predicate CarriesNoMatches(e: Event) {
    match e
    case HttpFail(_, _) => true
    case HttpOk(body, _) => Offered(body).None?
    case WsFrame(_, p) => p.None? || !p.value.Arr? || |p.value.items| == 0
    case _ => false
  }

  /** Never regress to empty: once matches are held, an event without a
      usable match list leaves them exactly as they were. */
  lemma NeverRegress(s: State, e: Event)
    requires HasData(s)
    requires CarriesNoMatches(e)
    ensures Step(s, e).data == s.data
  {
  }

  /** What every reachable state satisfies: held matches are non-empty, and
      updates never outnumber received frames. */
  predicate Inv(s: State) {
    && (s.data.Some? ==> Populated(s.data.value.matches))
    && s.updateCount <= s.wsMessageCount
  }

  lemma InitialInv()
    ensures Inv(Initial)
  {
  }

  /** Every event keeps the invariant, and once something is held, something
      non-empty stays held. */
  lemma StepInv(s: State, e: Event)
    requires Inv(s)
    ensures Inv(Step(s, e))
    ensures s.data.Some? ==> Step(s, e).data.Some?
  {
    match e {
      case HttpOk(body, clockMs) => FetchInv(s, body, clockMs);
      case HttpFail(message, clockMs) => FailInv(s, message, clockMs);
      case _ =>
    }
  }

  /** The fetch case of StepInv: what is installed is always non-empty. */
  lemma FetchInv(s: State, body: Json, clockMs: nat)
    requires Inv(s)
    ensures Inv(Step(s, HttpOk(body, clockMs)))
    ensures s.data.Some? ==> Step(s, HttpOk(body, clockMs)).data.Some?
  {
    AcceptBodyInv(s, body, clockMs);
    var s' := AcceptBody(s, body, clockMs);
    if body.Null? {
      FallBackInv(s'.(error := Some(NullBodyMessage)), ErrorFallback(clockMs));
    }
  }

  /** The `try` block installs only non-empty lists. */
  lemma AcceptBodyInv(s: State, body: Json, clockMs: nat)
    requires Inv(s)
    ensures Inv(AcceptBody(s, body, clockMs))
    ensures s.data.Some? ==> AcceptBody(s, body, clockMs).data.Some?
  {
    var m := Offered(body);
    if m.Some? {
      assert Populated(m.value);
    } else {
      FallBackInv(s, EmptyFallback(clockMs));
    }
  }

  /** Installing a non-empty placeholder keeps the invariant. */
  lemma FallBackInv(s: State, placeholder: Json)
    requires Inv(s) && Populated(placeholder)
    ensures Inv(FallBack(s, placeholder))
    ensures FallBack(s, placeholder).data.Some?
  {
  }

  /** The failure case of StepInv. */
  lemma FailInv(s: State, message: string, clockMs: nat)
    requires Inv(s)
    ensures Inv(Step(s, HttpFail(message, clockMs)))
    ensures s.data.Some? ==> Step(s, HttpFail(message, clockMs)).data.Some?
  {
    FallBackInv(s.(error := Some(message)), ErrorFallback(clockMs));
  }

  /** Over any sequence of events, the invariant holds throughout, and held
      matches are never replaced by nothing. */
  lemma {:induction false} RunInv(s: State, es: seq<Event>)
    requires Inv(s)
    ensures Inv(Run(s, es))
    ensures s.data.Some? ==> Run(s, es).data.Some?
    decreases |es|
  {
    if |es| > 0 {
      StepInv(s, es[0]);
      RunInv(Step(s, es[0]), es[1..]);
    }
  }

  /** From mount on, `updateCount <= wsMessageCount` and every held list is non-empty. */
  lemma ReachableInv(es: seq<Event>)
    ensures Inv(Run(Initial, es))
  {
    InitialInv();
    RunInv(Initial, es);
  }

  /** A fetch with nothing usable in its body, when nothing is held, installs
      exactly one `fallback_match_1` record fingerprinted by its text. A
      `null` body additionally ends in the catch block, so the error is set. */
  lemma EmptyBodyInstallsPlaceholder(s: State, body: Json, clockMs: nat)
    requires !HasData(s)
    requires Offered(body).None?
    ensures var r := Step(s, HttpOk(body, clockMs));
      && r.data == Some(Snapshot(EmptyFallback(clockMs)))
      && r.fingerprint == Ser(EmptyFallback(clockMs))
      && r.error == (if body.Null? then Some(NullBodyMessage) else None)
      && !r.loading
  {
    var p := EmptyFallback(clockMs);
    assert Populated(p);
  }

  /** A failed fetch, when nothing is held, installs exactly one
      `error_fallback_match` record fingerprinted by its text and sets the error. */
  lemma FailureInstallsPlaceholder(s: State, message: string, clockMs: nat)
    requires !HasData(s)
    ensures var r := Step(s, HttpFail(message, clockMs));
      && r.data == Some(Snapshot(ErrorFallback(clockMs)))
      && r.fingerprint == Ser(ErrorFallback(clockMs))
      && r.error == Some(message)
  {
  }

  /** Each placeholder list holds exactly one record, with its fixed id. */
  lemma PlaceholderIds(clockMs: nat)
    ensures |EmptyFallback(clockMs).items| == 1
    ensures Member(EmptyFallback(clockMs).items[0], "match_id") == Some(Str("fallback_match_1"))
    ensures |ErrorFallback(clockMs).items| == 1
    ensures Member(ErrorFallback(clockMs).items[0], "match_id") == Some(Str("error_fallback_match"))
  {
  }

  /** A fetch offering non-empty matches replaces what is held exactly when
      nothing is held or their text differs from the fingerprint; any fetch
      whose body is not `null` clears the error. */
  lemma FetchReplaces(s: State, body: Json, clockMs: nat)
    requires Offered(body).Some?
    ensures var m := Offered(body).value;
      var r := Step(s, HttpOk(body, clockMs));
      && (s.data.None? || s.fingerprint != Ser(m) ==>
            r.data == Some(Snapshot(m)) && r.fingerprint == Ser(m))
      && (s.data.Some? && s.fingerprint == Ser(m) ==>
            r.data == s.data && r.fingerprint == s.fingerprint)
      && r.error == None
  {
  }

  /** A completed fetch clears the error unless its body was `null`; a failed one sets it. */
  lemma FetchError(s: State, e: Event)
    requires e.HttpOk? || e.HttpFail?
    ensures e.HttpOk? && !e.body.Null? ==> Step(s, e).error == None
    ensures e.HttpOk? && e.body.Null? ==> Step(s, e).error == Some(NullBodyMessage)
    ensures e.HttpFail? ==> Step(s, e).error == Some(e.message)
  {
  }

  /** The raw-text short cut: a frame equal to a non-empty fingerprint only
      counts the message and records it as the last one. */
  lemma DuplicateFrame(s: State, raw: string, parsed: Option<Json>)
    requires s.fingerprint != "" && raw == s.fingerprint
    ensures Step(s, WsFrame(raw, parsed))
         == s.(wsMessageCount := s.wsMessageCount + 1, lastMessage := Some(Preview(raw)))
  {
  }

  /** When a frame changes what is held: it is not the fingerprint, it parses
      to a non-empty array, and that array differs structurally from the held
      matches (or nothing is held). */
  predicate FrameUpdates(s: State, raw: string, parsed: Option<Json>) {
    && !(s.fingerprint != "" && s.fingerprint == raw)
    && parsed.Some? && parsed.value.Arr? && |parsed.value.items| > 0
    && (s.data.None? || s.data.value.matches != parsed.value)
  }

  /** A frame bumps `updateCount` exactly when it updates; an update holds
      exactly the frame's array and fingerprints it by the raw text, and
      otherwise what is held and the fingerprint stay as they were. */
  lemma FrameUpdate(s: State, raw: string, parsed: Option<Json>)
    ensures var r := Step(s, WsFrame(raw, parsed));
      && (r.updateCount == s.updateCount + 1 <==> FrameUpdates(s, raw, parsed))
      && (FrameUpdates(s, raw, parsed) ==>
            r.data == Some(Snapshot(parsed.value)) && r.fingerprint == raw)
      && (!FrameUpdates(s, raw, parsed) ==>
            r.data == s.data && r.fingerprint == s.fingerprint && r.updateCount == s.updateCount)
  {
    if s.data.Some? && parsed.Some? {
      IsEqualIsStructural(s.data.value.matches, parsed.value);
    }
  }

  /** The same frame twice in a row: the second changes nothing but the
      message count. */
  lemma RepeatedFrame(s: State, raw: string, parsed: Option<Json>)
    ensures var s1 := Step(s, WsFrame(raw, parsed));
      var s2 := Step(s1, WsFrame(raw, parsed));
      s2 == s1.(wsMessageCount := s1.wsMessageCount + 1)
  {
    var s1 := Step(s, WsFrame(raw, parsed));
    FrameUpdate(s, raw, parsed);
    FrameUpdate(s1, raw, parsed);
  }

  /** Socket lifecycle: `Open` connects; `Error` marks the error and starts
      one poll timer; a close is a disconnect that starts a poll timer unless
      it was a normal closure. None of them touches what is held. */
  lemma Transport(s: State, e: Event)
    requires e.Open? || e.Error? || e.Close?
    ensures var r := Step(s, e);
      && r.data == s.data && r.fingerprint == s.fingerprint
      && (e.Open? ==> r.status == Connected && r.pollTimers == s.pollTimers)
      && (e.Error? ==> r.status == Errored && r.pollTimers == s.pollTimers + 1
                       && r.error == Some(SocketErrorMessage))
      && (e.Close? ==> r.status == Disconnected
                       && r.pollTimers == s.pollTimers + (if e.code == NormalClosure then 0 else 1))
  {
  }

  /** Poll timers are only ever added. */
  lemma {:induction false} TimersNeverDecrease(s: State, es: seq<Event>)
    ensures Run(s, es).pollTimers >= s.pollTimers
    decreases |es|
  {
    if |es| > 0 {
      TimersNeverDecrease(Step(s, es[0]), es[1..]);
    }
  }
}

=== FILE: json.dfy ===
/** JSON-shaped values as both halves of the system hold them: the browser
    after `JSON.parse` and the Python service after `response.json()`.
    Object members are kept in order, so two values are equal exactly when
    they have the same shape, the same scalars and the same member order. */
module Json {
  import opened Wrappers
  import opened Digits

  datatype Json =
    | Null
    | Bool(b: bool)
    | Num(n: int)
    | Str(s: string)
    | Arr(items: seq<Json>)
    | Obj(members: seq<(string, Json)>)

  /** JavaScript truthiness: `null`, `false`, `0` and `""` are falsy;
      every array and object, even an empty one, is truthy. */
  predicate JsTruthy(v: Json) {
    match v
    case Null => false
    case Bool(b) => b
    case Num(n) => n != 0
    case Str(s) => s != ""
    case Arr(_) => true
    case Obj(_) => true
  }

  /** Python truthiness: like JavaScript, except that an empty list or an
      empty dict is falsy. */
  predicate PyTruthy(v: Json) {
    match v
    case Null => false
    case Bool(b) => b
    case Num(n) => n != 0
    case Str(s) => s != ""
    case Arr(xs) => |xs| > 0
    case Obj(ps) => |ps| > 0
  }

  /** JavaScript `a || b` where `a` may be `undefined` (None). */
  function JsOr(a: Option<Json>, b: Json): (r: Json)
    ensures a.Some? && JsTruthy(a.value) ==> r == a.value
    ensures (a.None? || !JsTruthy(a.value)) ==> r == b
  {
    if a.Some? && JsTruthy(a.value) then a.value else b
  }

  /** The value stored under key `k` (its first occurrence). */
  function Lookup(ps: seq<(string, Json)>, k: string): (r: Option<Json>)
    ensures r.Some? <==> exists i :: 0 <= i < |ps| && ps[i].0 == k
    ensures r.Some? ==> exists i :: 0 <= i < |ps| && ps[i] == (k, r.value)
  {
    if |ps| == 0 then None
    else if ps[0].0 == k then Some(ps[0].1)
    else
      var r := Lookup(ps[1..], k);
      assert r.Some? ==> exists i :: 0 <= i < |ps[1..]| && ps[1..][i] == (k, r.value);
      r
  }

  /** The keys of an object, in member order. */
  function Keys(ps: seq<(string, Json)>): (ks: seq<string>)
    ensures |ks| == |ps|
    ensures forall i :: 0 <= i < |ps| ==> ks[i] == ps[i].0
  {
    if |ps| == 0 then [] else [ps[0].0] + Keys(ps[1..])
  }

  /** Property access `v.k` (JavaScript) or `v.get(k)` on a dict (Python):
      only objects have members; everything else yields `undefined`. */
  function Member(v: Json, k: string): (r: Option<Json>)
    ensures r.Some? ==> v.Obj? && k in Keys(v.members)
    ensures v.Obj? && k in Keys(v.members) ==> r.Some?
  {
    if v.Obj? then Lookup(v.members, k) else None
  }

  /** Python `d[k] = v` on an insertion-ordered dict: an existing key keeps
      its position and takes the new value; a new key is appended. */
  function SetKey(ps: seq<(string, Json)>, k: string, v: Json): (r: seq<(string, Json)>)
    ensures k in Keys(ps) ==> Keys(r) == Keys(ps)
    ensures k !in Keys(ps) ==> Keys(r) == Keys(ps) + [k]
  {
    if |ps| == 0 then [(k, v)]
    else if ps[0].0 == k then [(k, v)] + ps[1..]
    else [ps[0]] + SetKey(ps[1..], k, v)
  }

  /** After `d[k] = v`, `d[k]` is `v` and every other key reads as before. */
  lemma {:induction false} SetKeyLookup(ps: seq<(string, Json)>, k: string, v: Json, j: string)
    ensures Lookup(SetKey(ps, k, v), j) == if j == k then Some(v) else Lookup(ps, j)
  {
    if |ps| == 0 || ps[0].0 == k {
    } else {
      SetKeyLookup(ps[1..], k, v, j);
      var r := SetKey(ps, k, v);
      assert r[1..] == SetKey(ps[1..], k, v);
    }
  }

  /** JavaScript `v.length`: defined for arrays and strings, and for an
      object that carries a numeric `length` member. */
  function JsLength(v: Json): (r: Option<int>)
    ensures v.Arr? ==> r == Some(|v.items|)
    ensures v.Str? ==> r == Some(|v.s|)
    ensures (v.Null? || v.Bool? || v.Num?) ==> r.None?
  {
    match v
    case Arr(xs) => Some(|xs|)
    case Str(s) => Some(|s|)
    case Obj(ps) =>
      (match Lookup(ps, "length")
       case Some(Num(n)) => Some(n)
       case _ => None)
    case _ => None
  }

  /** React renders `null`, booleans, numbers, strings and arrays of these
      as children; an object child throws ("Objects are not valid as a
      React child"). */
  predicate Renderable(v: Json) {
    match v
    case Obj(_) => false
    case Arr(xs) => forall i :: 0 <= i < |xs| ==> Renderable(xs[i])
    case _ => true
  }

  /** A `{value}` child shown only when truthy (`{x && <div>{x}</div>}`). */
  predicate ShownOk(v: Option<Json>) {
    v.None? || !JsTruthy(v.value) || Renderable(v.value)
  }

  /** JavaScript `Object.entries(v)`: an object's members in order; an
      array's elements and a string's characters under their decimal
      indexes; nothing for a number or a boolean. `null` throws (None). */
  function Entries(v: Json): (r: Option<seq<(string, Json)>>)
    ensures r.None? <==> v.Null?
    ensures v.Obj? ==> r == Some(v.members)
    ensures v.Arr? ==> r.Some? && |r.value| == |v.items|
                       && forall i :: 0 <= i < |v.items| ==> r.value[i] == (NatStr(i), v.items[i])
    ensures v.Str? ==> r.Some? && |r.value| == |v.s|
                       && forall i :: 0 <= i < |v.s| ==> r.value[i] == (NatStr(i), Str([v.s[i]]))
    ensures v.Bool? || v.Num? ==> r == Some([])
  {
    match v
    case Null => None
    case Obj(ps) => Some(ps)
    case Arr(xs) => Some(seq(|xs|, i requires 0 <= i < |xs| => (NatStr(i), xs[i])))
    case Str(s) => Some(seq(|s|, i requires 0 <= i < |s| => (NatStr(i), Str([s[i]]))))
    case _ => Some([])
  }
}

=== FILE: market_grouper.dfy ===
/** The market grouper (aggregator/sports/tennis/market_grouper.py): each
    match passes through unchanged, except that one carrying betting markets
    gains a `grouped_markets` member bucketing them by their `group` field. */
module MarketGrouper {
  import opened Wrappers
  import opened Json
  import opened PyOps

  /** A Python dict from group to list of markets, in insertion order. Each
      key is kept as first inserted; lookups compare keys as Python does. */
  type Grouping = seq<(Json, seq<Json>)>

  /** A market the grouper buckets: a dict with a `group` key. */
  predicate Valid(m: Json) {
    m.Obj? && "group" in Keys(m.members)
  }

  function GroupOf(m: Json): Json
    requires Valid(m)
  {
    Lookup(m.members, "group").value
  }

  /** The entries the keys of `g` name. */
  function KeySet(g: Grouping): set<Json> {
    if |g| == 0 then {} else {KeyOf(g[0].0)} + KeySet(g[1..])
  }

  /** No two keys name the same entry. */
  predicate DistinctKeys(g: Grouping) {
    |g| == 0 || (KeyOf(g[0].0) !in KeySet(g[1..]) && DistinctKeys(g[1..]))
  }

  lemma {:induction false} InKeySet(g: Grouping, i: nat)
    requires i < |g|
    ensures KeyOf(g[i].0) in KeySet(g)
    decreases i
  {
    if i > 0 {
      InKeySet(g[1..], i - 1);
    }
  }

  /** `grouped.get(k, [])`. */
  function Bucket(g: Grouping, k: Json): seq<Json> {
    if |g| == 0 then []
    else if KeyOf(g[0].0) == KeyOf(k) then g[0].1
    else Bucket(g[1..], k)
  }

  /** The number of markets in all the buckets. */
  function Total(g: Grouping): nat {
    if |g| == 0 then 0 else |g[0].1| + Total(g[1..])
  }

  /** `if key not in grouped: grouped[key] = []`, then `grouped[key].append(item)`. */
  function Add(g: Grouping, key: Json, item: Json): (r: Grouping)
    ensures KeySet(r) == KeySet(g) + {KeyOf(key)}
    ensures DistinctKeys(g) ==> DistinctKeys(r)
    ensures (forall i :: 0 <= i < |g| ==> |g[i].1| > 0) ==> forall i :: 0 <= i < |r| ==> |r[i].1| > 0
  {
    if |g| == 0 then [(key, [item])]
    else if KeyOf(g[0].0) == KeyOf(key) then [(g[0].0, g[0].1 + [item])] + g[1..]
    else
      var rest := Add(g[1..], key, item);
      assert ([g[0]] + rest)[1..] == rest;
      [g[0]] + rest
  }

  /** Adding appends the item to its key's list and leaves every other list alone. */
  lemma {:induction false} AddBucket(g: Grouping, key: Json, item: Json, k: Json)
    ensures Bucket(Add(g, key, item), k) == if KeyOf(k) == KeyOf(key) then Bucket(g, k) + [item] else Bucket(g, k)
    decreases |g|
  {
    if |g| > 0 && KeyOf(g[0].0) != KeyOf(key) {
      var rest := Add(g[1..], key, item);
      assert ([g[0]] + rest)[1..] == rest;
      AddBucket(g[1..], key, item, k);
    }
  }

  /** Adding grows the total by one. */
  lemma {:induction false} AddTotal(g: Grouping, key: Json, item: Json)
    ensures Total(Add(g, key, item)) == Total(g) + 1
    decreases |g|
  {
    if |g| > 0 && KeyOf(g[0].0) != KeyOf(key) {
      var rest := Add(g[1..], key, item);
      assert ([g[0]] + rest)[1..] == rest;
      AddTotal(g[1..], key, item);
    }
  }

  /** The markets of `xs` the grouper puts under key `k`, in their order. */
  function Selected(xs: seq<Json>, k: Json): (r: seq<Json>)
    ensures forall x :: x in r ==> x in xs && Valid(x) && KeyOf(GroupOf(x)) == KeyOf(k)
  {
    if |xs| == 0 then []
    else
      var x := xs[|xs| - 1];
      Selected(xs[..|xs| - 1], k) + (if Valid(x) && KeyOf(GroupOf(x)) == KeyOf(k) then [x] else [])
  }

  /** The number of markets the grouper keeps. */
  function ValidCount(xs: seq<Json>): nat {
    if |xs| == 0 then 0
    else ValidCount(xs[..|xs| - 1]) + (if Valid(xs[|xs| - 1]) then 1 else 0)
  }

  /** The loop over a list of markets: markets that are not dicts, or have no
      `group`, are skipped; a `group` that is a list or dict is unhashable
      and raises a TypeError. */
  function GroupItems(xs: seq<Json>): (r: Result<Grouping, string>)
    ensures r.Success? ==> DistinctKeys(r.value)
    ensures r.Success? ==> forall i :: 0 <= i < |r.value| ==> |r.value[i].1| > 0
    decreases |xs|
  {
    if |xs| == 0 then Success([])
    else
      var front := xs[..|xs| - 1];
      match GroupItems(front)
      case Failure(e) => Failure(e)
      case Success(g) =>
        var x := xs[|xs| - 1];
        if !Valid(x) then Success(g)
        else if !Hashable(GroupOf(x)) then Failure("TypeError")
        else Success(Add(g, GroupOf(x), x))
  }

  /** Grouping raises exactly when some market's group is unhashable. */
  lemma {:induction false} GroupItemsSucceeds(xs: seq<Json>)
    ensures GroupItems(xs).Success? <==> forall i :: 0 <= i < |xs| && Valid(xs[i]) ==> Hashable(GroupOf(xs[i]))
    decreases |xs|
  {
    if |xs| > 0 {
      var front := xs[..|xs| - 1];
      GroupItemsSucceeds(front);
      assert forall i :: 0 <= i < |front| ==> front[i] == xs[i];
    }
  }

  /** Every bucket holds exactly the markets of that group, in their
      original relative order. */
  lemma {:induction false} GroupItemsBuckets(xs: seq<Json>, k: Json)
    requires GroupItems(xs).Success?
    ensures Bucket(GroupItems(xs).value, k) == Selected(xs, k)
    decreases |xs|
  {
    if |xs| > 0 {
      var front := xs[..|xs| - 1];
      GroupItemsBuckets(front, k);
      var x := xs[|xs| - 1];
      if Valid(x) {
        AddBucket(GroupItems(front).value, GroupOf(x), x, k);
      }
    }
  }

  /** No market is lost or duplicated: the buckets together hold as many
      markets as the input has dicts with a `group`. */
  lemma {:induction false} GroupItemsTotal(xs: seq<Json>)
    requires GroupItems(xs).Success?
    ensures Total(GroupItems(xs).value) == ValidCount(xs)
    decreases |xs|
  {
    if |xs| > 0 {
      var front := xs[..|xs| - 1];
      GroupItemsTotal(front);
      var x := xs[|xs| - 1];
      if Valid(x) {
        AddTotal(GroupItems(front).value, GroupOf(x), x);
      }
    }
  }

  /** With distinct keys, a key's bucket is the list stored beside it. */
  lemma {:induction false} BucketAt(g: Grouping, i: nat)
    requires DistinctKeys(g) && i < |g|
    ensures Bucket(g, g[i].0) == g[i].1
    decreases i
  {
    if i > 0 {
      InKeySet(g[1..], i - 1);
      BucketAt(g[1..], i - 1);
    }
  }

  /** Every key maps to a non-empty list whose markets all have that group. */
  lemma GroupItemsKeys(xs: seq<Json>, i: nat)
    requires GroupItems(xs).Success? && i < |GroupItems(xs).value|
    ensures var g := GroupItems(xs).value;
      && |g[i].1| > 0
      && forall x :: x in g[i].1 ==> x in xs && Valid(x) && KeyOf(GroupOf(x)) == KeyOf(g[i].0)
  {
    var g := GroupItems(xs).value;
    BucketAt(g, i);
    GroupItemsBuckets(xs, g[i].0);
  }

  /** `market_data.copy()` with `market_id` set to its key in the markets dict. */
  function Tag(id: string, v: Json): (t: Json)
    ensures Valid(t) <==> Valid(v)
    ensures Valid(v) ==> GroupOf(t) == GroupOf(v)
    ensures v.Obj? ==> t.Obj? && Lookup(t.members, "market_id") == Some(Str(id))
    ensures !v.Obj? ==> t == v
  {
    if v.Obj? then
      var ps := SetKey(v.members, "market_id", Str(id));
      SetKeyLookup(v.members, "market_id", Str(id), "group");
      SetKeyLookup(v.members, "market_id", Str(id), "market_id");
      Obj(ps)
    else v
  }

  /** Tagging changes no member but `market_id`. */
  lemma TagOthers(id: string, v: Json, j: string)
    requires v.Obj? && j != "market_id"
    ensures Lookup(Tag(id, v).members, j) == Lookup(v.members, j)
  {
    SetKeyLookup(v.members, "market_id", Str(id), j);
  }

  /** The dict branch, as the list branch over tagged copies: a plain map of
      `Tag` over the dict's items, in order. Its ensures only expose the
      pointwise view the lemmas use; what a tagged copy holds is stated by
      `Tag` and `TagOthers`. */
  function Tagged(ps: seq<(string, Json)>): (ts: seq<Json>)
    ensures |ts| == |ps|
    ensures forall i :: 0 <= i < |ps| ==> ts[i] == Tag(ps[i].0, ps[i].1)
  {
    seq(|ps|, i requires 0 <= i < |ps| => Tag(ps[i].0, ps[i].1))
  }

  /** `_group_markets_by_name(markets)`: a list is grouped as it is; a dict
      by its tagged values; anything else has no `items` (AttributeError). */
  function GroupMarketsByName(markets: Json): (r: Result<Grouping, string>)
    ensures markets.Arr? ==> r == GroupItems(markets.items)
    ensures markets.Obj? ==> r == GroupItems(Tagged(markets.members))
    ensures !markets.Arr? && !markets.Obj? ==> r.Failure?
  {
    match markets
    case Arr(xs) => GroupItems(xs)
    case Obj(ps) => GroupItems(Tagged(ps))
    case _ => Failure("AttributeError")
  }

  /** A grouping as the service sends it: a JSON object of lists, a plain
      map over the groups, keyed by `KeyText`. Its ensures only expose the
      pointwise view the lemmas use; whether the object repeats a key is
      `DistinctTexts`. */
  function Embed(g: Grouping): (j: Json)
    ensures j.Obj? && |j.members| == |g|
    ensures forall i :: 0 <= i < |g| ==> j.members[i] == (KeyText(g[i].0), Arr(g[i].1))
  {
    Obj(seq(|g|, i requires 0 <= i < |g| => (KeyText(g[i].0), Arr(g[i].1))))
  }

  /** The object `Embed` writes repeats no key: no two groups share their
      JSON key text. Distinct Python keys are not enough, since `1`, `True`
      and `"1"`, or `None` and `"null"`, are written alike. */
  predicate DistinctTexts(g: Grouping) {
    forall i, j :: 0 <= i < j < |g| ==> KeyText(g[i].0) != KeyText(g[j].0)
  }

  /** Two keys of a grouping with distinct keys name different entries. */
  lemma {:induction false} DistinctKeysPairwise(g: Grouping, i: nat, j: nat)
    requires DistinctKeys(g) && i < j < |g|
    ensures KeyOf(g[i].0) != KeyOf(g[j].0)
    decreases i
  {
    InKeySet(g[1..], j - 1);
    if i > 0 {
      DistinctKeysPairwise(g[1..], i - 1, j - 1);
    }
  }

  /** When every group is a string, distinct keys are distinct texts. */
  lemma StringKeysDistinctTexts(g: Grouping)
    requires DistinctKeys(g)
    requires forall i :: 0 <= i < |g| ==> g[i].0.Str?
    ensures DistinctTexts(g)
  {
    forall i, j | 0 <= i < j < |g|
      ensures KeyText(g[i].0) != KeyText(g[j].0)
    {
      DistinctKeysPairwise(g, i, j);
    }
  }

  /** The markets `[{"group": 1}, {"group": "1"}]` form two groups that
      `Embed` writes under the same key `"1"`. */
  lemma TextClash()
    ensures var g := GroupItems([Obj([("group", Num(1))]), Obj([("group", Str("1"))])]);
      && g.Success? && |g.value| == 2
      && KeyText(g.value[0].0) == KeyText(g.value[1].0) == "1"
  {
    var m1 := Obj([("group", Num(1))]);
    var m2 := Obj([("group", Str("1"))]);
    assert [m1, m2][..1] == [m1];
    assert [m1][..0] == [];
    assert GroupItems([m1]) == Success([(Num(1), [m1])]);
    assert KeyText(Num(1)) == "1";
  }

  /** The markets a match carries, when the grouper reads them: a truthy
      `rapid_data` dict holding a `raw_odds_data` dict holding truthy `markets`. */
  function CarriedMarkets(m: Json): (r: Option<Json>)
    ensures r.Some? ==> PyTruthy(r.value)
  {
    if m.Obj? && "rapid_data" in Keys(m.members) then
      var rd := Lookup(m.members, "rapid_data").value;
      if rd.Obj? && PyTruthy(rd) && "raw_odds_data" in Keys(rd.members) then
        var raw := Lookup(rd.members, "raw_odds_data").value;
        if raw.Obj? && "markets" in Keys(raw.members) then
          var markets := Lookup(raw.members, "markets").value;
          if PyTruthy(markets) then Some(markets) else None
        else None
      else None
    else None
  }

  /** One iteration of `process_matches`. Only dicts and lists have `copy`;
      a list passes through, unless it holds the string "rapid_data", which
      makes `match['rapid_data']` index a list by a string (TypeError). */
  function ProcessMatch(m: Json): (r: Result<Json, string>)
    ensures !m.Obj? && !m.Arr? ==> r.Failure?
    ensures m.Arr? ==> (r.Success? <==> Str("rapid_data") !in m.items)
    ensures m.Arr? && r.Success? ==> r.value == m
    ensures r.Success? ==> (r.value.Obj? <==> m.Obj?)
  {
    var copy :- Copy(m);
    var hasRapid :- Contains(m, "rapid_data");
    if !hasRapid then Success(copy)
    else
      var rd :- Index(m, "rapid_data");
      if !PyTruthy(rd) then Success(copy)
      else
        var hasRaw :- Contains(rd, "raw_odds_data");
        if !hasRaw then Success(copy)
        else
          var raw :- Index(rd, "raw_odds_data");
          var hasMarkets :- Contains(raw, "markets");
          if !hasMarkets then Success(copy)
          else
            var markets :- Index(raw, "markets");
            if !PyTruthy(markets) then Success(copy)
            else
              var g :- GroupMarketsByName(markets);
              Success(Obj(SetKey(m.members, "grouped_markets", Embed(g))))
  }

  /** A processed match is its input, unless the input carries markets; then
      it is the input with `grouped_markets` set to the grouping (added as
      the last member, or replacing an existing one in place). */
  lemma ProcessMatchShape(m: Json)
    requires ProcessMatch(m).Success?
    ensures var r := ProcessMatch(m).value;
      && (CarriedMarkets(m).None? ==> r == m)
      && (CarriedMarkets(m).Some? ==>
            && GroupMarketsByName(CarriedMarkets(m).value).Success?
            && r == Obj(SetKey(m.members, "grouped_markets",
                               Embed(GroupMarketsByName(CarriedMarkets(m).value).value))))
  {
  }

  /** Only `grouped_markets` differs between a processed match and its input. */
  lemma ProcessMatchOthers(m: Json, j: string)
    requires ProcessMatch(m).Success? && j != "grouped_markets"
    ensures ProcessMatch(m).value.Obj? <==> m.Obj?
    ensures m.Obj? ==> Lookup(ProcessMatch(m).value.members, j) == Lookup(m.members, j)
  {
    ProcessMatchShape(m);
    if CarriedMarkets(m).Some? {
      SetKeyLookup(m.members, "grouped_markets", Embed(GroupMarketsByName(CarriedMarkets(m).value).value), j);
    }
  }

  /** `process_matches(merged_matches)`: the i-th output is the i-th input
      processed; the first exception aborts the whole call. */
  function ProcessMatches(xs: seq<Json>): (r: Result<seq<Json>, string>)
    ensures r.Success? <==> forall i :: 0 <= i < |xs| ==> ProcessMatch(xs[i]).Success?
    ensures r.Success? ==> |r.value| == |xs|
    ensures r.Success? ==> forall i :: 0 <= i < |xs| ==> ProcessMatch(xs[i]) == Success(r.value[i])
  {
    if |xs| == 0 then Success([])
    else
      var h :- ProcessMatch(xs[0]);
      var t :- ProcessMatches(xs[1..]);
      Success([h] + t)
  }

  /** `group_markets(matches)`: a fresh grouper's `process_matches`; the
      grouper's own `processed_matches` dict is never read, so a fresh one
      answers as any other would. */
  function GroupMarkets(xs: seq<Json>): (r: Result<seq<Json>, string>)
    ensures r.Success? <==> forall i :: 0 <= i < |xs| ==> ProcessMatch(xs[i]).Success?
    ensures r.Success? ==> |r.value| == |xs|
    ensures r.Success? ==> forall i :: 0 <= i < |xs| ==> ProcessMatch(xs[i]) == Success(r.value[i])
  {
    ProcessMatches(xs)
  }
}

=== FILE: match_detail.dfy ===
/** The match page (my-react-app/src/MatchDetail.jsx): its fetch state, the
    choice among the loading, error, not-found and detail views, the field
    defaults, the set-score cells and the market categories it lists. */
module MatchDetail {
  import opened Wrappers
  import opened Json
  import opened Digits
  import opened PlayerName

  /** The page's state: the fetched match (`null` until one arrives), the
      loading flag and the error message. */
  datatype Page = Page(record: Json, loading: bool, error: Option<string>)

  const PageInitial := Page(Null, true, None)

  /** `fetchMatchDetails` in three steps: it starts, then either a body
      parsed from an ok response arrives, or something throws. */
  datatype PageEvent = Begin | Loaded(body: Json) | Failed(message: string)

  /** The message thrown for a response that is not ok. */
  function HttpErrorMessage(status: int): (m: string)
    ensures |m| > 20 && m[..20] == "HTTP error! Status: "
    ensures m[20..] == IntStr(status)
  {
    "HTTP error! Status: " + IntStr(status)
  }

  function PageStep(p: Page, e: PageEvent): (r: Page)
    ensures e.Begin? ==> r.loading
    ensures !e.Begin? ==> !r.loading
    ensures e.Loaded? ==> r.record == e.body && r.error.None?
    ensures e.Failed? ==> r.record == p.record && r.error == Some(e.message)
  {
    match e
    case Begin => p.(loading := true)
    case Loaded(body) => p.(record := body, error := None, loading := false)
    case Failed(message) => p.(error := Some(message), loading := false)
  }

  /** The page's views. `DetailCrash` is the detail render throwing (see
      `DetailThrows`). */
  datatype View = Loading | ErrorView(message: string) | NotFound | Detail | DetailCrash

  /** The page's early returns, in order: loading, then a (non-empty) error,
      then a falsy match; then the details, which render or throw. */
  function SelectView(p: Page): (v: View)
    ensures v.Loading? <==> p.loading
    ensures v.ErrorView? <==> !p.loading && p.error.Some? && p.error.value != ""
    ensures v.ErrorView? ==> v.message == p.error.value
    ensures v.NotFound? <==> !p.loading && (p.error.None? || p.error.value == "") && !JsTruthy(p.record)
    ensures v.Detail? || v.DetailCrash? ==> JsTruthy(p.record)
    ensures v.Detail? || v.DetailCrash? ==> (v.DetailCrash? <==> DetailThrows(p.record))
  {
    if p.loading then Loading
    else if p.error.Some? && p.error.value != "" then ErrorView(p.error.value)
    else if !JsTruthy(p.record) then NotFound
    else if DetailThrows(p.record) then DetailCrash
    else Detail
  }

  /** A failed fetch shows the error view with its message, whatever was
      shown before; a fetch that delivers a truthy body shows the details,
      unless rendering them throws. */
  lemma FetchOutcomeView(p: Page, e: PageEvent)
    requires !e.Begin?
    ensures e.Failed? && e.message != "" ==> SelectView(PageStep(p, e)) == ErrorView(e.message)
    ensures e.Loaded? && JsTruthy(e.body) ==>
              SelectView(PageStep(p, e)) == if DetailThrows(e.body) then DetailCrash else Detail
    ensures e.Loaded? && !JsTruthy(e.body) ==> SelectView(PageStep(p, e)) == NotFound
  {
  }

  /** `match.betsapi_data || {}`, then `inplayEvent || inplay_event || {}`. */
  function InplayEvent(record: Json): (ev: Json)
    ensures JsTruthy(ev)
  {
    var betsapi := JsOr(Member(record, "betsapi_data"), Obj([]));
    JsOr(Member(betsapi, "inplayEvent"), JsOr(Member(betsapi, "inplay_event"), Obj([])))
  }

  /** The text under "Current Score" (`key` = `ss`) and "Current Points"
      (`key` = `points`): the member, or `'0-0'` when missing or falsy. */
  function PairText(ev: Json, key: string): (r: Json)
    ensures JsTruthy(r)
    ensures Member(ev, key).None? || !JsTruthy(Member(ev, key).value) ==> r == Str("0-0")
    ensures Member(ev, key).Some? && JsTruthy(Member(ev, key).value) ==> r == Member(ev, key).value
  {
    JsOr(Member(ev, key), Str("0-0"))
  }

  /** `scores[set]?.home || '0'` (or `.away`) for one set's value. */
  function SetCell(setScore: Json, side: string): (r: Json)
    ensures JsTruthy(r)
    ensures setScore.Null? ==> r == Str("0")
    ensures Member(setScore, side).Some? && JsTruthy(Member(setScore, side).value) ==> r == Member(setScore, side).value
    ensures Member(setScore, side).None? || !JsTruthy(Member(setScore, side).value) ==> r == Str("0")
  {
    if setScore.Null? then Str("0") else JsOr(Member(setScore, side), Str("0"))
  }

  /** One player's row of the set table: a cell per key of
      `inplayEvent.scores || {}`, in key order. */
  function SetRow(ev: Json, side: string): (cells: seq<Json>)
    ensures var es := Entries(JsOr(Member(ev, "scores"), Obj([])));
      && es.Some? && |cells| == |es.value|
      && forall i :: 0 <= i < |cells| ==> cells[i] == SetCell(es.value[i].1, side)
    ensures forall i :: 0 <= i < |cells| ==> JsTruthy(cells[i])
  {
    var scores := JsOr(Member(ev, "scores"), Obj([]));
    var es := Entries(scores).value;
    seq(|es|, i requires 0 <= i < |es| => SetCell(es[i].1, side))
  }

  /** `name.split('/')[0]`: the part before the first slash, which labels a
      player's row (the first partner, for a doubles pair). */
  function FirstPartner(name: string): (r: string)
    ensures '/' !in r
    ensures |r| <= |name| && r == name[..|r|]
    ensures |r| < |name| ==> name[|r|] == '/'
  {
    if |name| == 0 || name[0] == '/' then ""
    else
      var rest := FirstPartner(name[1..]);
      assert [name[0]] + rest == name[..|rest| + 1];
      [name[0]] + rest
  }

  /** A category is listed when its value is truthy and has at least one key. */
  predicate Listed(markets: Json) {
    JsTruthy(markets) && Entries(markets).Some? && |Entries(markets).value| > 0
  }

  /** The `forEach` over the entries of `grouped_markets`. */
  function KeepListed(es: seq<(string, Json)>): (r: seq<(string, Json)>)
    ensures forall p :: p in r <==> p in es && Listed(p.1)
    ensures |r| <= |es|
  {
    if |es| == 0 then []
    else if Listed(es[0].1) then [es[0]] + KeepListed(es[1..])
    else KeepListed(es[1..])
  }

  /** The filter keeps entries in their original order: it distributes over
      concatenation. */
  lemma {:induction false} KeepListedAppend(a: seq<(string, Json)>, b: seq<(string, Json)>)
    ensures KeepListed(a + b) == KeepListed(a) + KeepListed(b)
    decreases |a|
  {
    if |a| > 0 {
      assert (a + b)[0] == a[0];
      assert (a + b)[1..] == a[1..] + b;
      KeepListedAppend(a[1..], b);
      if Listed(a[0].1) {
        assert [a[0]] + (KeepListed(a[1..]) + KeepListed(b)) == ([a[0]] + KeepListed(a[1..])) + KeepListed(b);
      }
    } else {
      assert a + b == b;
    }
  }

  /** When every category is listable, all are listed, unchanged. */
  lemma {:induction false} KeepListedAll(es: seq<(string, Json)>)
    requires forall i :: 0 <= i < |es| ==> Listed(es[i].1)
    ensures KeepListed(es) == es
    decreases |es|
  {
    if |es| > 0 {
      KeepListedAll(es[1..]);
    }
  }

  /** `groupedMarkets`: the listable categories of `match.grouped_markets`,
      none when it is missing or falsy. */
  function GroupedMarkets(record: Json): (r: seq<(string, Json)>)
    ensures Member(record, "grouped_markets").None? || !JsTruthy(Member(record, "grouped_markets").value) ==> r == []
    ensures Member(record, "grouped_markets").Some? && JsTruthy(Member(record, "grouped_markets").value) ==>
              forall p :: p in r <==> p in Entries(Member(record, "grouped_markets").value).value && Listed(p.1)
  {
    var gm := Member(record, "grouped_markets");
    if gm.Some? && JsTruthy(gm.value) then KeepListed(Entries(gm.value).value) else []
  }

  datatype MarketsPanel = MarketsSection(categories: seq<(string, Json)>) | NoMarkets

  /** The betting-markets section when some category is listed, otherwise the
      "No markets available" panel: exactly one of the two. */
  function Markets(record: Json): (p: MarketsPanel)
    ensures p.NoMarkets? <==> GroupedMarkets(record) == []
    ensures p.MarketsSection? ==> p.categories == GroupedMarkets(record) && |p.categories| > 0
  {
    var g := GroupedMarkets(record);
    if |g| > 0 then MarketsSection(g) else NoMarkets
  }

  /** One market of a listed category, shown option by option:
      `Object.entries(data)` throws on `null`, and an option value React
      cannot render throws. */
  predicate MarketThrows(data: Json) {
    data.Null? || exists i :: 0 <= i < |Entries(data).value| && !Renderable(Entries(data).value[i].1)
  }

  /** A listed category, shown market by market. */
  predicate CategoryThrows(markets: Json) {
    markets.Null? || exists i :: 0 <= i < |Entries(markets).value| && MarketThrows(Entries(markets).value[i].1)
  }

  /** `formatPlayerName` throws on a truthy name that is not a string. */
  predicate NamesThrow(ev: Json) {
    || FormatPlayerName(Member(JsOr(Member(ev, "home"), Obj([])), "name")).Failure?
    || FormatPlayerName(Member(JsOr(Member(ev, "away"), Obj([])), "name")).Failure?
  }

  /** The overview shows the league name (or "Tennis Match"), a truthy `cc`
      for each player, the score and the points as React children. */
  predicate OverviewThrows(ev: Json) {
    || !Renderable(JsOr(Member(JsOr(Member(ev, "league"), Obj([])), "name"), Str("Tennis Match")))
    || !ShownOk(Member(JsOr(Member(ev, "home"), Obj([])), "cc"))
    || !ShownOk(Member(JsOr(Member(ev, "away"), Obj([])), "cc"))
    || !Renderable(PairText(ev, "ss"))
    || !Renderable(PairText(ev, "points"))
  }

  /** The set table shows every cell of both rows as a React child. */
  predicate SetsThrow(ev: Json) {
    || (exists i :: 0 <= i < |SetRow(ev, "home")| && !Renderable(SetRow(ev, "home")[i]))
    || (exists i :: 0 <= i < |SetRow(ev, "away")| && !Renderable(SetRow(ev, "away")[i]))
  }

  /** Some listed category throws. */
  predicate MarketsThrow(record: Json) {
    exists i :: 0 <= i < |GroupedMarkets(record)| && CategoryThrows(GroupedMarkets(record)[i].1)
  }

  /** Whether rendering the details of a truthy match throws: `name.replace`
      on a truthy non-string name, or an object shown as a React child (the
      league name, a truthy `cc`, the score, the points, a set cell), or a
      listed category that throws. Every other access has a `|| {}`
      fallback or optional chaining. */
  predicate DetailThrows(record: Json) {
    var ev := InplayEvent(record);
    NamesThrow(ev) || OverviewThrows(ev) || SetsThrow(ev) || MarketsThrow(record)
  }

  /** A match whose home player's name is a number: the page throws. */
  lemma NumericNameDetailCrashes()
    ensures var record := Obj([("betsapi_data", Obj([("inplayEvent", Obj([("home", Obj([("name", Num(7))]))]))]))]);
      SelectView(Page(record, false, None)) == DetailCrash
  {
    var home := Obj([("name", Num(7))]);
    var ev := Obj([("home", home)]);
    var record := Obj([("betsapi_data", Obj([("inplayEvent", ev)]))]);
    assert InplayEvent(record) == ev;
    NumericHomeNameThrows();
  }

  lemma NumericHomeNameThrows()
    ensures NamesThrow(Obj([("home", Obj([("name", Num(7))]))]))
  {
    var home := Obj([("name", Num(7))]);
    assert JsOr(Member(Obj([("home", home)]), "home"), Obj([])) == home;
    assert Member(home, "name") == Some(Num(7));
  }

  /** A market option whose value is an object: the page throws. */
  lemma ObjectOptionCrashes()
    ensures CategoryThrows(Arr([Obj([("odds", Obj([]))])]))
  {
    var data := Obj([("odds", Obj([]))]);
    assert Entries(data).value[0].1 == Obj([]);
    assert MarketThrows(data);
    assert Entries(Arr([data])).value[0].1 == data;
  }

  /** An empty match renders from the defaults. */
  lemma BareDetailRenders()
    ensures SelectView(Page(Obj([]), false, None)) == Detail
  {
    assert InplayEvent(Obj([])) == Obj([]);
    assert !NamesThrow(Obj([]));
    assert !OverviewThrows(Obj([]));
    assert SetRow(Obj([]), "home") == [] && SetRow(Obj([]), "away") == [];
    assert GroupedMarkets(Obj([])) == [];
  }
}

=== FILE: overlay.dfy ===
/** The socket debug overlay (my-react-app/src/WebSocketDebugOverlay.jsx):
    the uptime clock, the last-message summary, the efficiency figure and the
    status colour. The elapsed time is an input; the clock that produces it
    is not modelled. */
module Overlay {
  import opened Wrappers
  import opened Json
  import opened Digits

  /** Uptime as hours, minutes and seconds. */
  datatype Uptime = Uptime(hours: nat, minutes: nat, seconds: nat)

  /** Whole seconds since the overlay mounted, split as the overlay splits
      them; hours are not wrapped at 24. */
  function SplitUptime(elapsedMs: nat): (u: Uptime)
    ensures u.hours * 3600 + u.minutes * 60 + u.seconds == elapsedMs / 1000
    ensures u.minutes < 60 && u.seconds < 60
  {
    var total := elapsedMs / 1000;
    Uptime(total / 3600, (total % 3600) / 60, total % 60)
  }

  /** `n.toString().padStart(2, '0')`. */
  function Pad2(n: nat): (s: string)
    ensures AllDigits(s) && |s| >= 2
    ensures n < 100 ==> |s| == 2
    ensures DigitsValue(s) == n
  {
    NatStrValue(n);
    if n < 10 then
      var d := NatStr(n);
      assert ("0" + d)[..1] == "0";
      "0" + d
    else
      NatStrShort(n);
      NatStr(n)
  }

  /** A number of two decimal digits or fewer renders in at most two characters. */
  lemma NatStrShort(n: nat)
    ensures n < 10 ==> |NatStr(n)| == 1
    ensures 10 <= n < 100 ==> |NatStr(n)| == 2
    ensures n >= 10 ==> |NatStr(n)| >= 2
  {
    if n >= 10 {
      NatStrShort(n / 10);
    }
  }

  /** The `HH:MM:SS` text. */
  function UptimeDisplay(elapsedMs: nat): (t: string)
    ensures |t| >= 8
    ensures t[|t| - 3] == ':' && t[|t| - 6] == ':'
  {
    var u := SplitUptime(elapsedMs);
    Pad2(u.hours) + ":" + Pad2(u.minutes) + ":" + Pad2(u.seconds)
  }

  /** Reads an `H:MM:SS` text back to seconds: the hours are everything
      before the last six characters, which must be `:MM:SS`. */
  function ReadUptime(t: string): (r: Option<nat>)
  {
    if |t| < 7 then None else ReadClock(t[..|t| - 6], t[|t| - 6..])
  }

  /** The hours field, then `:MM:SS`. */
  function ReadClock(hours: string, tail: string): (r: Option<nat>)
    requires |tail| == 6
  {
    if tail[0] == ':' && tail[3] == ':' && AllDigits(hours) && AllDigits(tail[1..3]) && AllDigits(tail[4..])
    then Some(Seconds(DigitsValue(hours), DigitsValue(tail[1..3]), DigitsValue(tail[4..])))
    else None
  }

  /** Hours, minutes and seconds as a number of seconds. */
  function Seconds(hours: nat, minutes: nat, seconds: nat): nat {
    hours * 3600 + minutes * 60 + seconds
  }

  /** The display loses nothing: reading it back gives the uptime in seconds. */
  lemma UptimeRoundTrip(elapsedMs: nat)
    ensures ReadUptime(UptimeDisplay(elapsedMs)) == Some(elapsedMs / 1000)
  {
    var u := SplitUptime(elapsedMs);
    ReadFields(Pad2(u.hours), Pad2(u.minutes), Pad2(u.seconds));
  }

  /** Reading three digit fields, the last two of width two, joined by colons. */
  lemma ReadFields(h: string, m: string, s: string)
    requires AllDigits(h) && AllDigits(m) && AllDigits(s)
    requires |h| >= 2 && |m| == 2 && |s| == 2
    ensures ReadUptime(h + ":" + m + ":" + s) == Some(Seconds(DigitsValue(h), DigitsValue(m), DigitsValue(s)))
  {
    var tail := ":" + m + ":" + s;
    assert h + ":" + m + ":" + s == h + tail;
    SplitLast(h, tail);
    ReadTail(h, m, s);
  }

  lemma ReadTail(h: string, m: string, s: string)
    requires AllDigits(h) && AllDigits(m) && AllDigits(s)
    requires |m| == 2 && |s| == 2
    ensures ReadClock(h, ":" + m + ":" + s) == Some(Seconds(DigitsValue(h), DigitsValue(m), DigitsValue(s)))
  {
    TailFields(m, s);
  }

  lemma SplitLast(h: string, tail: string)
    requires |tail| == 6
    ensures (h + tail)[..|h + tail| - 6] == h && (h + tail)[|h + tail| - 6..] == tail
  {
  }

  lemma TailFields(m: string, s: string)
    requires |m| == 2 && |s| == 2
    ensures var tail := ":" + m + ":" + s;
      tail[0] == ':' && tail[3] == ':' && tail[1..3] == m && tail[4..] == s
  {
  }

  /** Longest string summary shown before truncation. */
  const SummaryLimit := 100

  /** `keys.join(', ')`. */
  function Join(ks: seq<string>, sep: string): string {
    if |ks| == 0 then ""
    else if |ks| == 1 then ks[0]
    else ks[0] + sep + Join(ks[1..], sep)
  }

  /** `formatLastMessage(msg)`. */
  function FormatLastMessage(msg: Json): (r: string)
    ensures !JsTruthy(msg) ==> r == "None"
    ensures msg.Str? && JsTruthy(msg) && |msg.s| <= SummaryLimit ==> r == msg.s
    ensures msg.Str? && |msg.s| > SummaryLimit ==>
              |r| == SummaryLimit + 3 && r[..SummaryLimit] == msg.s[..SummaryLimit] && r[SummaryLimit..] == "..."
    ensures msg.Arr? ==> r == "Array with " + NatStr(|msg.items|) + " items"
    ensures msg.Obj? && |msg.members| <= 3 ==> r == "Object with keys: " + Join(Keys(msg.members), ", ")
    ensures msg.Obj? && |msg.members| > 3 ==> r == "Object with keys: " + Join(Keys(msg.members)[..3], ", ") + "..."
  {
    if !JsTruthy(msg) then "None"
    else match msg
      case Arr(xs) => "Array with " + NatStr(|xs|) + " items"
      case Obj(ps) =>
        var ks := Keys(ps);
        if |ks| > 3 then "Object with keys: " + Join(ks[..3], ", ") + "..."
        else "Object with keys: " + Join(ks, ", ")
      case Str(s) => if |s| > SummaryLimit then s[..SummaryLimit] + "..." else s
      case Num(n) => IntStr(n)
      case Bool(_) => "true"
      case Null => "None"
  }

  /** The efficiency figure: `'0%'` with no messages, otherwise the share of
      messages that caused an update, as a percentage (its one-decimal
      rendering is not modelled). */
  datatype Efficiency = ZeroPercent | Percent(value: real)

  function EfficiencyOf(messages: nat, updates: nat): (e: Efficiency)
    ensures e.ZeroPercent? <==> messages == 0
    ensures e.Percent? ==> e.value * (messages as real) == (updates as real) * 100.0
  {
    if messages > 0 then Percent(updates as real / messages as real * 100.0) else ZeroPercent
  }

  /** With no more updates than messages, the figure is a percentage. */
  lemma EfficiencyBounded(messages: nat, updates: nat)
    requires updates <= messages
    ensures var e := EfficiencyOf(messages, updates);
      e.Percent? ==> 0.0 <= e.value <= 100.0
  {
    var e := EfficiencyOf(messages, updates);
    if e.Percent? {
      assert e.value * (messages as real) <= 100.0 * (messages as real);
    }
  }

  const UnknownColor := "#999"

  /** `statusColor[wsStatus] || '#999'`. */
  function StatusColor(status: string): (c: string)
    ensures c != UnknownColor <==> status in {"connected", "disconnected", "error", "connecting"}
  {
    if status == "connected" then "#4CAF50"
    else if status == "disconnected" then "#F44336"
    else if status == "error" then "#FF9800"
    else if status == "connecting" then "#2196F3"
    else UnknownColor
  }

  /** The overlay's content, when shown. */
  datatype Panel = Panel(color: string, efficiency: Efficiency, uptime: string, lastMessage: string)

  /** The overlay renders nothing unless visible. */
  function Render(visible: bool, status: string, messages: nat, lastMessage: Json,
                  updates: nat, elapsedMs: nat): (p: Option<Panel>)
    ensures p.None? <==> !visible
    ensures p.Some? ==> p.value.color == StatusColor(status)
                        && p.value.efficiency == EfficiencyOf(messages, updates)
                        && p.value.lastMessage == FormatLastMessage(lastMessage)
  {
    if !visible then None
    else Some(Panel(StatusColor(status), EfficiencyOf(messages, updates),
                    UptimeDisplay(elapsedMs), FormatLastMessage(lastMessage)))
  }
}

=== FILE: player_name.dfy ===
/** `formatPlayerName`, written once and used identically by the match list
    (my-react-app/src/TennisData.jsx) and the match page
    (my-react-app/src/MatchDetail.jsx): collapse whitespace runs, delete
    parenthesised groups, trim. */
module PlayerName {
  import opened Wrappers
  import opened Json

  /** The characters JavaScript's `\s` and `String.prototype.trim` treat as
      white space: ECMAScript WhiteSpace and LineTerminator. */
  predicate IsSpace(c: char) {
    var n := c as int;
    || (0x09 <= n <= 0x0D) || n == 0x20 || n == 0xA0 || n == 0x1680
    || (0x2000 <= n <= 0x200A) || n == 0x2028 || n == 0x2029
    || n == 0x202F || n == 0x205F || n == 0x3000 || n == 0xFEFF
  }

  /** Every white-space character is a plain space, and no two are adjacent. */
  predicate SingleSpaced(s: string) {
    && (forall i :: 0 <= i < |s| && IsSpace(s[i]) ==> s[i] == ' ')
    && (forall i :: 0 <= i < |s| - 1 ==> !(IsSpace(s[i]) && IsSpace(s[i + 1])))
  }

  /** Neither the first nor the last character is white space. */
  predicate NoEdgeSpace(s: string) {
    |s| > 0 ==> !IsSpace(s[0]) && !IsSpace(s[|s| - 1])
  }

  /** No `(` is followed, anywhere later, by a `)`. */
  predicate NoGroup(s: string) {
    forall i, j :: 0 <= i < j < |s| && s[i] == '(' ==> s[j] != ')'
  }

  /** The characters of `s` that are not white space, in order. */
  function Visible(s: string): (r: string)
    ensures forall i :: 0 <= i < |r| ==> !IsSpace(r[i])
  {
    if |s| == 0 then []
    else if IsSpace(s[0]) then Visible(s[1..])
    else [s[0]] + Visible(s[1..])
  }

  /** `s` without its leading white space. */
  function DropSpaces(s: string): (r: string)
    ensures |r| <= |s| && r == s[|s| - |r|..]
    ensures forall k :: 0 <= k < |s| - |r| ==> IsSpace(s[k])
    ensures |r| > 0 ==> !IsSpace(r[0])
  {
    if |s| > 0 && IsSpace(s[0]) then DropSpaces(s[1..]) else s
  }

  lemma DropSpacesVisible(s: string)
    ensures Visible(DropSpaces(s)) == Visible(s)
  {
  }

  /** The length of the run of non-space characters `s` starts with. */
  function WordLen(s: string): (n: nat)
    ensures n <= |s|
    ensures forall k :: 0 <= k < n ==> !IsSpace(s[k])
    ensures n < |s| ==> IsSpace(s[n])
  {
    if |s| == 0 || IsSpace(s[0]) then 0 else 1 + WordLen(s[1..])
  }

  /** The words of `s`: its maximal runs of non-space characters, in order. */
  function Words(s: string): seq<string>
    decreases |s|
  {
    if |s| == 0 then []
    else if IsSpace(s[0]) then Words(s[1..])
    else
      var n := WordLen(s);
      [s[..n]] + Words(s[n..])
  }

  /** Leading white space separates no words. */
  lemma {:induction false} WordsDropSpaces(s: string)
    ensures Words(DropSpaces(s)) == Words(s)
    decreases |s|
  {
    if |s| > 0 && IsSpace(s[0]) {
      WordsDropSpaces(s[1..]);
    }
  }

  /** A visible character in front starts a new word before white space or
      the end, and otherwise joins the first word. */
  lemma WordsCons(c: char, x: string)
    requires !IsSpace(c)
    ensures |x| == 0 || IsSpace(x[0]) ==> Words([c] + x) == [[c]] + Words(x)
    ensures |x| > 0 && !IsSpace(x[0]) ==>
              Words([c] + x) == [[c] + Words(x)[0]] + Words(x)[1..]
  {
    var t := [c] + x;
    assert t[1..] == x;
    var n := WordLen(x);
    assert WordLen(t) == 1 + n;
    assert t[..1 + n] == [c] + x[..n];
    assert t[1 + n..] == x[n..];
  }

  /** `replace(/\s+/g, ' ')`: each maximal run of white space becomes one space. */
  function Collapse(s: string): (r: string)
    ensures SingleSpaced(r)
    ensures Visible(r) == Visible(s)
    ensures |s| > 0 ==> |r| > 0 && (IsSpace(r[0]) <==> IsSpace(s[0]))
    decreases |s|
  {
    if |s| == 0 then []
    else if IsSpace(s[0]) then
      var rest := DropSpaces(s[1..]);
      DropSpacesVisible(s[1..]);
      var tail := Collapse(rest);
      ConsSingleSpaced(' ', tail);
      ConsVisible(' ', tail);
      [' '] + tail
    else
      var tail := Collapse(s[1..]);
      ConsSingleSpaced(s[0], tail);
      ConsVisible(s[0], tail);
      [s[0]] + tail
  }

  /** The collapse keeps the words of `s`. */
  lemma {:induction false} CollapseWords(s: string)
    ensures Words(Collapse(s)) == Words(s)
    decreases |s|
  {
    if |s| > 0 {
      if IsSpace(s[0]) {
        var tail := Collapse(DropSpaces(s[1..]));
        CollapseWords(DropSpaces(s[1..]));
        WordsDropSpaces(s[1..]);
        assert Collapse(s) == [' '] + tail;
        assert ([' '] + tail)[1..] == tail;
      } else {
        var tail := Collapse(s[1..]);
        CollapseWords(s[1..]);
        assert Collapse(s) == [s[0]] + tail;
        WordsCons(s[0], tail);
        WordsCons(s[0], s[1..]);
        assert [s[0]] + s[1..] == s;
      }
    }
  }

  /** The collapse ends in white space exactly when `s` does. */
  lemma {:induction false} CollapseLast(s: string)
    requires |s| > 0
    ensures var r := Collapse(s); |r| > 0 && (IsSpace(r[|r| - 1]) <==> IsSpace(s[|s| - 1]))
    decreases |s|
  {
    if IsSpace(s[0]) {
      var rest := DropSpaces(s[1..]);
      if |rest| > 0 {
        CollapseLast(rest);
        assert rest[|rest| - 1] == s[|s| - 1];
      }
    } else if |s| > 1 {
      CollapseLast(s[1..]);
    }
  }

  lemma SingleSpacedSuffix(s: string, k: nat)
    requires SingleSpaced(s) && k <= |s|
    ensures SingleSpaced(s[k..])
  {
    var t := s[k..];
    assert forall i :: 0 <= i < |t| ==> t[i] == s[k + i];
  }

  /** A text with a visible character at its start, or right after one
      leading space, has at least one word. */
  lemma SomeWord(s: string)
    requires |s| > 0
    requires !IsSpace(s[0]) || (|s| > 1 && !IsSpace(s[1]))
    ensures Words(s) != []
  {
    if IsSpace(s[0]) {
      assert Words(s) == Words(s[1..]);
    }
  }

  /** Two texts that start with a visible character and have the same
      words share their first word and the words after it. */
  lemma SameFirstWord(a: string, b: string)
    requires |a| > 0 && |b| > 0 && !IsSpace(a[0]) && !IsSpace(b[0])
    requires Words(a) == Words(b)
    ensures WordLen(a) == WordLen(b) && a[..WordLen(a)] == b[..WordLen(b)]
    ensures Words(a[WordLen(a)..]) == Words(b[WordLen(b)..])
  {
    var w := Words(a);
    assert w == [a[..WordLen(a)]] + Words(a[WordLen(a)..]);
    assert w == [b[..WordLen(b)]] + Words(b[WordLen(b)..]);
    assert w[0] == a[..WordLen(a)] == b[..WordLen(b)];
    assert w[1..] == Words(a[WordLen(a)..]) == Words(b[WordLen(b)..]);
  }

  /** A single-spaced text that starts with white space and has no word is
      that one space. */
  lemma LoneSpace(s: string)
    requires SingleSpaced(s) && |s| > 0 && IsSpace(s[0]) && Words(s) == []
    ensures |s| == 1
  {
    if |s| > 1 {
      SomeWord(s);
    }
  }

  /** Two single-spaced texts with the same words, both empty or both not,
      and white space at the same ends, are equal. */
  lemma {:induction false} SingleSpacedDetermined(a: string, b: string)
    requires SingleSpaced(a) && SingleSpaced(b) && Words(a) == Words(b)
    requires |a| > 0 <==> |b| > 0
    requires |a| > 0 ==> (IsSpace(a[0]) <==> IsSpace(b[0]))
    requires |a| > 0 ==> (IsSpace(a[|a| - 1]) <==> IsSpace(b[|b| - 1]))
    ensures a == b
    decreases |a|
  {
    if |a| > 0 && IsSpace(a[0]) {
      SpaceCase(a, b);
    } else if |a| > 0 {
      WordCase(a, b);
    }
  }

  lemma {:induction false} SpaceCase(a: string, b: string)
    requires SingleSpaced(a) && SingleSpaced(b) && Words(a) == Words(b)
    requires |a| > 0 && |b| > 0 && IsSpace(a[0]) && IsSpace(b[0])
    requires IsSpace(a[|a| - 1]) <==> IsSpace(b[|b| - 1])
    ensures a == b
    decreases |a|, 0
  {
    var a1, b1 := a[1..], b[1..];
    SingleSpacedSuffix(a, 1);
    SingleSpacedSuffix(b, 1);
    assert Words(a1) == Words(a) && Words(b1) == Words(b);
    if |a1| == 0 || |b1| == 0 {
      assert Words(a) == [];
      LoneSpace(a);
      LoneSpace(b);
    } else {
      assert a1[|a1| - 1] == a[|a| - 1] && b1[|b1| - 1] == b[|b| - 1];
      SingleSpacedDetermined(a1, b1);
    }
    assert a == [a[0]] + a1 && b == [b[0]] + b1;
  }

  lemma {:induction false} WordCase(a: string, b: string)
    requires SingleSpaced(a) && SingleSpaced(b) && Words(a) == Words(b)
    requires |a| > 0 && |b| > 0 && !IsSpace(a[0]) && !IsSpace(b[0])
    requires IsSpace(a[|a| - 1]) <==> IsSpace(b[|b| - 1])
    ensures a == b
    decreases |a|, 0
  {
    SameFirstWord(a, b);
    var n := WordLen(a);
    SingleSpacedSuffix(a, n);
    SingleSpacedSuffix(b, n);
    if |a| == n || |b| == n {
      TailsEmpty(a, b, n);
    } else {
      AfterWord(a, n);
      AfterWord(b, n);
      SingleSpacedDetermined(a[n..], b[n..]);
    }
    Rejoin(a, b, n);
  }

  /** What follows the first word starts with white space and ends as the text does. */
  lemma AfterWord(s: string, n: nat)
    requires n == WordLen(s) < |s|
    ensures var t := s[n..]; |t| > 0 && IsSpace(t[0]) && t[|t| - 1] == s[|s| - 1]
  {
  }

  lemma Rejoin(a: string, b: string, n: nat)
    requires n <= |a| && n <= |b| && a[..n] == b[..n] && a[n..] == b[n..]
    ensures a == b
  {
    assert a == a[..n] + a[n..] && b == b[..n] + b[n..];
  }

  /** After a common first word, one text cannot end while the other goes on. */
  lemma TailsEmpty(a: string, b: string, n: nat)
    requires SingleSpaced(a) && SingleSpaced(b)
    requires 0 < n == WordLen(a) == WordLen(b) && a[..n] == b[..n]
    requires Words(a[n..]) == Words(b[n..])
    requires IsSpace(a[|a| - 1]) <==> IsSpace(b[|b| - 1])
    requires |a| == n || |b| == n
    ensures |a| == n == |b|
  {
    if |a| > n {
      SingleSpacedSuffix(a, n);
      LoneSpace(a[n..]);
      assert false;
    } else if |b| > n {
      SingleSpacedSuffix(b, n);
      LoneSpace(b[n..]);
      assert false;
    }
  }

  /** The collapse is the only single-spaced text with the words of `s`
      and white space at the same ends as `s`. */
  lemma CollapseCharacterized(s: string, r: string)
    requires SingleSpaced(r) && Words(r) == Words(s)
    requires |r| > 0 <==> |s| > 0
    requires |s| > 0 ==> (IsSpace(r[0]) <==> IsSpace(s[0]))
    requires |s| > 0 ==> (IsSpace(r[|r| - 1]) <==> IsSpace(s[|s| - 1]))
    ensures r == Collapse(s)
  {
    CollapseWords(s);
    if |s| > 0 {
      CollapseLast(s);
    }
    SingleSpacedDetermined(r, Collapse(s));
  }

  /** One character in front keeps a text single-spaced unless it makes a
      second space in a row or is white space other than a plain space. */
  lemma ConsSingleSpaced(c: char, r: string)
    requires SingleSpaced(r)
    requires IsSpace(c) ==> c == ' ' && (|r| == 0 || !IsSpace(r[0]))
    ensures SingleSpaced([c] + r)
  {
    var t := [c] + r;
    assert forall i :: 1 <= i < |t| ==> t[i] == r[i - 1];
  }

  lemma ConsVisible(c: char, r: string)
    ensures Visible([c] + r) == if IsSpace(c) then Visible(r) else [c] + Visible(r)
  {
    assert ([c] + r)[1..] == r;
  }

  /** A single-spaced string is left as it is by the collapse. */
  lemma {:induction false} CollapseSingleSpaced(s: string)
    requires SingleSpaced(s)
    ensures Collapse(s) == s
    decreases |s|
  {
    if |s| > 0 {
      assert SingleSpaced(s[1..]);
      CollapseSingleSpaced(s[1..]);
      if IsSpace(s[0]) && |s| > 1 {
        assert !IsSpace(s[1]);
      }
    }
  }

  /** The index of the first `)` in `s`. */
  function FirstClose(s: string): (j: nat)
    requires ')' in s
    ensures j < |s| && s[j] == ')'
    ensures forall k :: 0 <= k < j ==> s[k] != ')'
  {
    if s[0] == ')' then 0 else 1 + FirstClose(s[1..])
  }

  /** `replace(/\([^)]*\)/g, '')`: scanning from the left, a `(` that has a
      `)` somewhere after it is deleted together with everything up to and
      including the first such `)`; any other character is kept. */
  function StripGroups(s: string): (r: string)
    ensures forall i :: 0 <= i < |r| ==> r[i] in s
    ensures NoGroup(r)
    decreases |s|
  {
    if |s| == 0 then []
    else if s[0] == '(' && ')' in s[1..] then StripGroups(s[1 + FirstClose(s[1..]) + 1..])
    else
      var rest := StripGroups(s[1..]);
      assert forall i :: 0 <= i < |rest| ==> rest[i] in s[1..];
      [s[0]] + rest
  }

  /** With no `(` followed later by a `)` there is nothing to delete. */
  lemma {:induction false} StripGroupsNoGroup(s: string)
    requires NoGroup(s)
    ensures StripGroups(s) == s
    decreases |s|
  {
    if |s| > 0 {
      NoGroupSlice(s, 1, |s|);
      StripGroupsNoGroup(s[1..]);
      if s[0] == '(' {
        assert forall k :: 0 <= k < |s| - 1 ==> s[1..][k] == s[k + 1];
      }
    }
  }

  /** The first `(` that has a `)` after it goes, with everything up to the
      first such `)`; the text before it is kept and the rest is stripped
      in turn. With `StripGroupsNoGroup` and `GroupSplits` this determines
      every result. */
  lemma {:induction false} StripGroupsSplit(a: string, g: string, b: string)
    requires '(' !in a && ')' !in g
    ensures StripGroups(a + "(" + g + ")" + b) == a + StripGroups(b)
    decreases |a|
  {
    var s := a + "(" + g + ")" + b;
    if |a| == 0 {
      assert s == "(" + g + ")" + b;
      var t := s[1..];
      assert t == g + ")" + b;
      assert t[|g|] == ')';
      assert FirstClose(t) == |g|;
      assert s[1 + |g| + 1..] == b;
    } else {
      StripGroupsSplit(a[1..], g, b);
      assert s[1..] == a[1..] + "(" + g + ")" + b;
      assert s[0] == a[0];
      assert a == [a[0]] + a[1..];
    }
  }

  /** A text with a `(` followed later by a `)` splits, at its first `(`,
      into the parts `StripGroupsSplit` takes. */
  lemma {:induction false} GroupSplits(s: string) returns (a: string, g: string, b: string)
    requires !NoGroup(s)
    ensures '(' !in a && ')' !in g && s == a + "(" + g + ")" + b
    decreases |s|
  {
    var i, j :| 0 <= i < j < |s| && s[i] == '(' && s[j] == ')';
    var t := s[1..];
    if s[0] == '(' {
      assert t[j - 1] == ')';
      a := "";
      g, b := SplitAtClose(t);
      assert s == "(" + t;
    } else {
      assert t[i - 1] == '(' && t[j - 1] == ')';
      var a';
      a', g, b := GroupSplits(t);
      a := [s[0]] + a';
      PrependSplit(s, a', g, b);
    }
  }

  lemma PrependSplit(s: string, a: string, g: string, b: string)
    requires |s| > 0 && s[1..] == a + "(" + g + ")" + b
    ensures s == ([s[0]] + a) + "(" + g + ")" + b
  {
    assert s == [s[0]] + s[1..];
  }

  /** A text holding a `)` splits at its first one. */
  lemma SplitAtClose(t: string) returns (g: string, b: string)
    requires ')' in t
    ensures ')' !in g && t == g + ")" + b
  {
    var f := FirstClose(t);
    g, b := t[..f], t[f + 1..];
    assert t == t[..f] + [t[f]] + t[f + 1..];
  }

  /** `s` without its trailing white space. */
  function DropTrailingSpaces(s: string): (r: string)
    ensures |r| <= |s| && r == s[..|r|]
    ensures forall k :: |r| <= k < |s| ==> IsSpace(s[k])
    ensures |r| > 0 ==> !IsSpace(r[|r| - 1])
  {
    if |s| > 0 && IsSpace(s[|s| - 1]) then DropTrailingSpaces(s[..|s| - 1]) else s
  }

  /** `trim()`: `r` is the slice of `s` left once the white space at both
      ends is gone: everything cut off is white space, and what remains has
      none at either end. */
  function Trim(s: string): (r: string)
    ensures NoEdgeSpace(r)
    ensures exists i, j :: && 0 <= i <= j <= |s| && r == s[i..j]
                          && (forall k :: 0 <= k < i ==> IsSpace(s[k]))
                          && (forall k :: j <= k < |s| ==> IsSpace(s[k]))
  {
    var t := DropSpaces(s);
    var r := DropTrailingSpaces(t);
    assert r == s[|s| - |t|..|s| - |t| + |r|];
    r
  }

  lemma NoGroupSlice(s: string, i: nat, j: nat)
    requires NoGroup(s) && i <= j <= |s|
    ensures NoGroup(s[i..j])
  {
    var t := s[i..j];
    forall a, b | 0 <= a < b < |t| && t[a] == '('
      ensures t[b] != ')'
    {
      assert t[a] == s[i + a] && t[b] == s[i + b];
    }
  }

  /** The text cleaning applied to a present, string-valued name. */
  function Clean(s: string): (r: string)
    ensures NoEdgeSpace(r)
    ensures NoGroup(r)
  {
    var g := StripGroups(Collapse(s));
    var r := Trim(g);
    var i, j :| 0 <= i <= j <= |g| && r == g[i..j];
    NoGroupSlice(g, i, j);
    r
  }

  /** A name that is already tidy, with no `(`, no white space at either end
      and single plain spaces between words, comes back unchanged. */
  lemma CleanTidy(s: string)
    requires '(' !in s && SingleSpaced(s) && NoEdgeSpace(s)
    ensures Clean(s) == s
  {
    CollapseSingleSpaced(s);
    StripGroupsNoGroup(s);
    assert DropSpaces(s) == s;
    assert DropTrailingSpaces(s) == s;
  }

  const UnknownPlayer := "Unknown Player"

  /** `formatPlayerName(name)`: a missing or falsy name is "Unknown Player";
      a string is cleaned; any other truthy value has no `replace` method,
      so the call throws a TypeError (Failure). */
  function FormatPlayerName(name: Option<Json>): (r: Result<string, string>)
    ensures (name.None? || !JsTruthy(name.value)) ==> r == Success(UnknownPlayer)
    ensures name.Some? && name.value.Str? && name.value.s != "" ==> r == Success(Clean(name.value.s))
    ensures r.Failure? <==> name.Some? && JsTruthy(name.value) && !name.value.Str?
    ensures r.Success? ==> NoEdgeSpace(r.value) && NoGroup(r.value)
  {
    match name
    case None => Success(UnknownPlayer)
    case Some(v) =>
      if !JsTruthy(v) then Success(UnknownPlayer)
      else if v.Str? then
        Success(Clean(v.s))
      else Failure("TypeError: name.replace is not a function")
  }
}

=== FILE: pyops.dfy ===
/** The few Python operations the service applies to parsed JSON (`in`,
    `[]`, `.get`, `.copy`, dict keys), with the exception each raises on a
    value of the wrong type as a `Failure` carrying the exception's name. */
module PyOps {
  import opened Wrappers
  import opened Json
  import opened Digits

  /** Lists and dicts cannot be dict keys. */
  predicate Hashable(v: Json) {
    !v.Arr? && !v.Obj?
  }

  /** The key a value stands for in a dict: `True == 1` and `False == 0`,
      with equal hashes, so they name the same entry. */
  function KeyOf(v: Json): (k: Json)
    ensures !k.Bool?
    ensures Hashable(v) <==> Hashable(k)
    ensures !v.Bool? ==> k == v
  {
    match v
    case Bool(b) => Num(if b then 1 else 0)
    case _ => v
  }

  /** `t` occurs in `s` as a contiguous run. */
  predicate IsSubstring(t: string, s: string)
    decreases |s|
  {
    |t| <= |s| && (s[..|t|] == t || IsSubstring(t, s[1..]))
  }

  /** `key in c` for a string `key`: a dict's keys, a list's elements, a
      substring; any other value is not iterable. */
  function Contains(c: Json, key: string): (r: Result<bool, string>)
    ensures r.Failure? <==> c.Null? || c.Bool? || c.Num?
    ensures c.Obj? ==> r == Success(key in Keys(c.members))
    ensures c.Arr? ==> r == Success(Str(key) in c.items)
  {
    match c
    case Obj(ps) => Success(key in Keys(ps))
    case Arr(xs) => Success(Str(key) in xs)
    case Str(s) => Success(IsSubstring(key, s))
    case _ => Failure("TypeError")
  }

  /** `c[key]` for a string `key`: only a dict holding the key answers. */
  function Index(c: Json, key: string): (r: Result<Json, string>)
    ensures r.Success? <==> c.Obj? && key in Keys(c.members)
    ensures r.Success? ==> Some(r.value) == Lookup(c.members, key)
  {
    match c
    case Obj(ps) => if key in Keys(ps) then Success(Lookup(ps, key).value) else Failure("KeyError")
    case _ => Failure("TypeError")
  }

  /** `c.get(key)`: a dict's value, or `None` when absent; other values have no `get`. */
  function Get(c: Json, key: string): (r: Result<Json, string>)
    ensures r.Success? <==> c.Obj?
    ensures c.Obj? ==> r == Success(Lookup(c.members, key).GetOr(Null))
  {
    match c
    case Obj(ps) => Success(Lookup(ps, key).GetOr(Null))
    case _ => Failure("AttributeError")
  }

  /** `c.copy()`: dicts and lists copy (a copy of an immutable value is the
      value itself); nothing else has `copy`. */
  function Copy(c: Json): (r: Result<Json, string>)
    ensures r.Success? <==> c.Obj? || c.Arr?
    ensures r.Success? ==> r.value == c
  {
    if c.Obj? || c.Arr? then Success(c) else Failure("AttributeError")
  }

  /** The text `json.dumps` writes for a dict key. */
  function KeyText(k: Json): string {
    match k
    case Str(s) => s
    case Num(n) => IntStr(n)
    case Bool(b) => if b then "true" else "false"
    case _ => "null"
  }
}

=== FILE: server.dfy ===
/** The API service's match store (main_api.py): the current list, the
    match cache with its one-hour lifetime, one refresh from the upstream
    bot, the single-match lookup, and the list payload. Clock readings and
    upstream responses are inputs. */
module Server {
  import opened Wrappers
  import opened Json
  import opened PyOps
  import opened MarketGrouper

  /** Cache lifetime, in seconds. */
  const CacheTtl: real := 3600.0

  datatype Entry = Entry(data: Json, timestamp: real)

  /** `tennis_matches` and `match_cache`, the cache keyed as Python keys it. */
  datatype ServerState = ServerState(matches: seq<Json>, cache: map<Json, Entry>)

  const Boot := ServerState([], map[])

  /** What one `requests.get` of the upstream yields: a status and the body
      as parsed (None when it is not JSON), or an exception. */
  datatype Upstream = Response(status: int, body: Option<Json>) | Unreachable

  /** `data.get("matches", [])`, then `len(...)` of it for the log line. */
  function RawMatches(data: Json): (r: Result<Json, string>)
    ensures r.Success? ==> data.Obj? && (r.value.Arr? || r.value.Obj? || r.value.Str?)
    ensures data.Obj? && Lookup(data.members, "matches").None? ==> r == Success(Arr([]))
    ensures data.Obj? && Lookup(data.members, "matches").Some? ==>
              var v := Lookup(data.members, "matches").value;
              && (r.Success? <==> v.Arr? || v.Obj? || v.Str?)
              && (r.Success? ==> r.value == v)
  {
    var raw :- Get(data, "matches");
    var raw := if Lookup(data.members, "matches").None? then Arr([]) else raw;
    if raw.Arr? || raw.Obj? || raw.Str? then Success(raw) else Failure("TypeError")
  }

  /** What `for match in raw_matches` visits: a list's elements, a dict's
      keys, a string's characters. */
  function Iterate(raw: Json): (xs: seq<Json>)
    ensures raw.Arr? ==> xs == raw.items
  {
    match raw
    case Arr(items) => items
    case Obj(ps) => seq(|ps|, i requires 0 <= i < |ps| => Str(ps[i].0))
    case Str(s) => seq(|s|, i requires 0 <= i < |s| => Str([s[i]]))
    case _ => []
  }

  /** The cache loop's outcome: the cache as it stands when the loop ends,
      and whether it ran to the end. */
  datatype Loop = Loop(cache: map<Json, Entry>, completed: bool)

  /** `for match in processed_matches: ...`: every match with a truthy
      `match_id` is stored under it, stamped `now`. An element that is not a
      dict (no `get`) or an unhashable id raises, leaving the entries stored
      so far in place. */
  function CacheLoop(cache: map<Json, Entry>, ms: seq<Json>, now: real): (r: Loop)
    ensures r.completed ==> forall i :: 0 <= i < |ms| ==> ms[i].Obj?
    ensures forall k :: k in cache ==> k in r.cache
    decreases |ms|
  {
    if |ms| == 0 then Loop(cache, true)
    else match Get(ms[0], "match_id")
      case Failure(_) => Loop(cache, false)
      case Success(id) =>
        if !PyTruthy(id) then CacheLoop(cache, ms[1..], now)
        else if !Hashable(id) then Loop(cache, false)
        else CacheLoop(cache[KeyOf(id) := Entry(ms[0], now)], ms[1..], now)
  }

  /** The id a processed match is cached under, when it has a usable one. */
  function CacheKey(m: Json): Option<Json> {
    if m.Obj? && Lookup(m.members, "match_id").Some? then
      var id := Lookup(m.members, "match_id").value;
      if PyTruthy(id) && Hashable(id) then Some(KeyOf(id)) else None
    else None
  }

  /** After a completed loop every match with a usable id is cached, stamped
      `now`, under that id, and each entry it wrote holds a match with that id. */
  lemma {:induction false} CacheLoopStores(cache: map<Json, Entry>, ms: seq<Json>, now: real)
    requires CacheLoop(cache, ms, now).completed
    ensures var c := CacheLoop(cache, ms, now).cache;
      forall i :: 0 <= i < |ms| && CacheKey(ms[i]).Some? ==>
        CacheKey(ms[i]).value in c && c[CacheKey(ms[i]).value].timestamp == now
    ensures var c := CacheLoop(cache, ms, now).cache;
      forall k :: k in c ==>
        || (k in cache && c[k] == cache[k])
        || (c[k].timestamp == now && c[k].data in ms && CacheKey(c[k].data) == Some(k))
    decreases |ms|
  {
    if |ms| > 0 {
      var id := Get(ms[0], "match_id").value;
      var next := if PyTruthy(id) then cache[KeyOf(id) := Entry(ms[0], now)] else cache;
      CacheLoopStores(next, ms[1..], now);
      var c := CacheLoop(cache, ms, now).cache;
      assert c == CacheLoop(next, ms[1..], now).cache;
      if CacheKey(ms[0]).Some? {
        assert CacheKey(ms[0]).value in next;
      }
    }
  }

  /** The clean-up: an entry goes exactly when it is older than the lifetime. */
  function Evict(cache: map<Json, Entry>, now: real): (r: map<Json, Entry>)
    ensures forall k :: k in r <==> k in cache && now - cache[k].timestamp <= CacheTtl
    ensures forall k :: k in r ==> r[k] == cache[k]
  {
    map k | k in cache && !(now - cache[k].timestamp > CacheTtl) :: cache[k]
  }

  /** The processed list an upstream reply yields: a 200 whose body parses,
      has a sized `matches` and goes through the grouper without raising. */
  function Processed(up: Upstream): (r: Option<seq<Json>>)
    ensures up.Unreachable? || up.status != 200 || up.body.None? ==> r.None?
    ensures up.Response? && up.body.Some? && !up.body.value.Obj? ==> r.None?
    ensures up.Response? && up.status == 200 && up.body.Some? && up.body.value.Obj? ==>
              var m := Lookup(up.body.value.members, "matches");
              && (m.None? ==> r == Some([]))
              && (m.Some? && (m.value.Null? || m.value.Bool? || m.value.Num?) ==> r.None?)
              && (m.Some? && m.value.Arr? ==>
                    && (r.Some? <==> forall i :: 0 <= i < |m.value.items| ==> ProcessMatch(m.value.items[i]).Success?)
                    && (r.Some? ==> r.value == ProcessMatches(m.value.items).value))
              && (m.Some? && m.value.Obj? ==> r == if |m.value.members| == 0 then Some([]) else None)
              && (m.Some? && m.value.Str? ==> r == if |m.value.s| == 0 then Some([]) else None)
  {
    if up.Unreachable? || up.status != 200 || up.body.None? then None
    else match RawMatches(up.body.value)
      case Failure(_) => None
      case Success(raw) =>
        match ProcessMatches(Iterate(raw))
        case Failure(_) => None
        case Success(processed) => Some(processed)
  }

  /** One pass of `process_tennis_data` at clock `now`. Without a processed
      list nothing changes (in particular on any status but 200); with one,
      the cache is brought up to date and cleaned and the list replaced,
      unless the cache loop raises, which keeps the entries stored so far
      and the old list. */
  function Refresh(st: ServerState, up: Upstream, now: real): (r: ServerState)
    ensures Processed(up).None? ==> r == st
    ensures Processed(up).Some? ==>
              var loop := CacheLoop(st.cache, Processed(up).value, now);
              && (loop.completed ==> r.matches == Processed(up).value && r.cache == Evict(loop.cache, now))
              && (!loop.completed ==> r.matches == st.matches && r.cache == loop.cache)
  {
    match Processed(up)
    case None => st
    case Some(processed) =>
      var loop := CacheLoop(st.cache, processed, now);
      if !loop.completed then st.(cache := loop.cache)
      else ServerState(processed, Evict(loop.cache, now))
  }

  /** A refresh whose processed list went through the cache loop, whether
      or not the list differs from the one held, makes that list current and
      caches each of its matches that has a usable id, stamped with this
      refresh's clock. */
  lemma RefreshCaches(st: ServerState, up: Upstream, now: real, i: nat)
    requires Processed(up).Some? && CacheLoop(st.cache, Processed(up).value, now).completed
    requires i < |Processed(up).value| && CacheKey(Processed(up).value[i]).Some?
    ensures var r := Refresh(st, up, now);
      var k := CacheKey(Processed(up).value[i]).value;
      && r.matches == Processed(up).value
      && k in r.cache && r.cache[k].timestamp == now
  {
    CacheLoopStores(st.cache, Processed(up).value, now);
  }

  /** `RefreshCaches` speaks of real refreshes: a 200 reply listing one match
      with an id meets its requires. */
  lemma RefreshCachesReachable()
    ensures var up := Response(200, Some(Obj([("matches", Arr([Obj([("match_id", Str("m1"))])]))])));
      && Processed(up).Some? && CacheLoop(Boot.cache, Processed(up).value, 0.0).completed
      && 0 < |Processed(up).value| && CacheKey(Processed(up).value[0]).Some?
  {
    var m := Obj([("match_id", Str("m1"))]);
    assert ProcessMatch(m) == Success(m);
    assert ProcessMatches([m]).Success?;
    assert ProcessMatches([m]).value == [m];
    var up := Response(200, Some(Obj([("matches", Arr([m]))])));
    assert Processed(up) == Some([m]);
    assert CacheKey(m) == Some(KeyOf(Str("m1")));
  }

  /** Every cache entry holds a dict. */
  predicate CacheDicts(cache: map<Json, Entry>) {
    forall k :: k in cache ==> cache[k].data.Obj?
  }

  /** Every match the service lists, and every match it has cached, is a
      dict: what keeps the lookup from raising, and what the client is
      served. */
  predicate ServerInv(st: ServerState) {
    && (forall i :: 0 <= i < |st.matches| ==> st.matches[i].Obj?)
    && CacheDicts(st.cache)
  }

  /** The cache loop stores only matches whose `get` succeeded, so dicts. */
  lemma {:induction false} CacheLoopDicts(cache: map<Json, Entry>, ms: seq<Json>, now: real)
    requires CacheDicts(cache)
    ensures CacheDicts(CacheLoop(cache, ms, now).cache)
    decreases |ms|
  {
    if |ms| > 0 && Get(ms[0], "match_id").Success? {
      var id := Get(ms[0], "match_id").value;
      if !PyTruthy(id) {
        CacheLoopDicts(cache, ms[1..], now);
      } else if Hashable(id) {
        CacheLoopDicts(cache[KeyOf(id) := Entry(ms[0], now)], ms[1..], now);
      }
    }
  }

  lemma RefreshInv(st: ServerState, up: Upstream, now: real)
    requires ServerInv(st)
    ensures ServerInv(Refresh(st, up, now))
  {
    if Processed(up).Some? {
      CacheLoopDicts(st.cache, Processed(up).value, now);
    }
  }

  /** The service starts in a state that satisfies the invariant. */
  lemma BootInv()
    ensures ServerInv(Boot)
  {
  }

  /** `get_match_details`' scan of the current list: the first match whose
      `get("match_id")` equals the id; an element without `get` raises. */
  function FindCurrent(ms: seq<Json>, id: string): (r: Result<Option<Json>, string>)
    ensures r.Success? && r.value.Some? ==> r.value.value in ms
    decreases |ms|
  {
    if |ms| == 0 then Success(None)
    else match Get(ms[0], "match_id")
      case Failure(e) => Failure(e)
      case Success(v) => if v == Str(id) then Success(Some(ms[0])) else FindCurrent(ms[1..], id)
  }

  /** Whether a listed match answers to `id`. */
  predicate Answers(m: Json, id: string) {
    m.Obj? && Lookup(m.members, "match_id") == Some(Str(id))
  }

  /** The scan returns the first answering match, once the dicts before it do not answer. */
  lemma {:induction false} FindCurrentFirst(ms: seq<Json>, id: string, i: nat)
    requires i < |ms| && Answers(ms[i], id)
    requires forall j :: 0 <= j < i ==> ms[j].Obj? && !Answers(ms[j], id)
    ensures FindCurrent(ms, id) == Success(Some(ms[i]))
    decreases i
  {
    if i > 0 {
      FindCurrentFirst(ms[1..], id, i - 1);
    }
  }

  /** Over dicts none of which answers, the scan finds nothing. */
  lemma {:induction false} FindCurrentNone(ms: seq<Json>, id: string)
    requires forall j :: 0 <= j < |ms| ==> ms[j].Obj? && !Answers(ms[j], id)
    ensures FindCurrent(ms, id) == Success(None)
    decreases |ms|
  {
    if |ms| > 0 {
      FindCurrentNone(ms[1..], id);
    }
  }

  /** The reply to `/api/tennis/match/{id}`. */
  datatype Reply = Found(data: Json) | NotFound | InternalError

  function StatusCode(r: Reply): int {
    match r
    case Found(_) => 200
    case NotFound => 404
    case InternalError => 500
  }

  /** `get_match_details(id)` at clock `now`: the current list first, then a
      cache entry younger than the lifetime, else 404. */
  function MatchDetails(st: ServerState, id: string, now: real): (r: Reply)
    ensures r.Found? ==> r.data in st.matches
                         || (Str(id) in st.cache && r.data == st.cache[Str(id)].data
                             && now - st.cache[Str(id)].timestamp < CacheTtl)
  {
    match FindCurrent(st.matches, id)
    case Failure(_) => InternalError
    case Success(Some(m)) => Found(m)
    case Success(None) =>
      if Str(id) in st.cache && now - st.cache[Str(id)].timestamp < CacheTtl
      then Found(st.cache[Str(id)].data)
      else NotFound
  }

  /** A match in the current list is served from the list, whatever the cache holds. */
  lemma CurrentBeforeCache(st: ServerState, id: string, now: real, i: nat)
    requires ServerInv(st)
    requires i < |st.matches| && Answers(st.matches[i], id)
    requires forall j :: 0 <= j < i ==> !Answers(st.matches[j], id)
    ensures MatchDetails(st, id, now) == Found(st.matches[i])
  {
    FindCurrentFirst(st.matches, id, i);
  }

  /** When no listed match answers, a cached match is served exactly while it
      is younger than the lifetime; otherwise the reply is 404. */
  lemma CacheServedIff(st: ServerState, id: string, now: real)
    requires ServerInv(st)
    requires forall j :: 0 <= j < |st.matches| ==> !Answers(st.matches[j], id)
    ensures MatchDetails(st, id, now).Found? <==>
              Str(id) in st.cache && now - st.cache[Str(id)].timestamp < CacheTtl
    ensures !MatchDetails(st, id, now).Found? ==> MatchDetails(st, id, now) == NotFound
  {
    FindCurrentNone(st.matches, id);
  }

  /** In a state the service can reach, a lookup taken between two refreshes
      never raises. */
  lemma LookupNeverFails(st: ServerState, id: string, now: real)
    requires ServerInv(st)
    ensures MatchDetails(st, id, now) != InternalError
  {
    if exists i :: 0 <= i < |st.matches| && Answers(st.matches[i], id) {
      var i := FirstAnswer(st.matches, id);
      FindCurrentFirst(st.matches, id, i);
    } else {
      FindCurrentNone(st.matches, id);
    }
  }

  /** In a state the service can reach, whatever it serves is a dict, from
      the list or from the cache. */
  lemma ServedDict(st: ServerState, id: string, now: real)
    requires ServerInv(st)
    ensures MatchDetails(st, id, now).Found? ==> MatchDetails(st, id, now).data.Obj?
  {
    var r := MatchDetails(st, id, now);
    if r.Found? && r.data in st.matches {
      var i :| 0 <= i < |st.matches| && st.matches[i] == r.data;
    }
  }

  /** The index of the first answering match. */
  function FirstAnswer(ms: seq<Json>, id: string): (i: nat)
    requires exists i :: 0 <= i < |ms| && Answers(ms[i], id)
    ensures i < |ms| && Answers(ms[i], id)
    ensures forall j :: 0 <= j < i ==> !Answers(ms[j], id)
  {
    if Answers(ms[0], id) then 0
    else
      assert exists i :: 0 <= i < |ms[1..]| && Answers(ms[1..][i], id) by {
        var i :| 0 <= i < |ms| && Answers(ms[i], id);
        assert ms[1..][i - 1] == ms[i];
      }
      1 + FirstAnswer(ms[1..], id)
  }

  /** The boundary between the two comparisons: an entry exactly one lifetime
      old survives the clean-up but is no longer served. */
  lemma TtlBoundary(st: ServerState, id: string, now: real)
    requires ServerInv(st)
    requires forall j :: 0 <= j < |st.matches| ==> !Answers(st.matches[j], id)
    requires Str(id) in st.cache && now - st.cache[Str(id)].timestamp == CacheTtl
    ensures Str(id) in Evict(st.cache, now)
    ensures MatchDetails(st, id, now) == NotFound
  {
    CacheServedIff(st, id, now);
  }

  /** `get_tennis_matches()`: the current list under `matches`, beside the
      time of the request as text. */
  function TennisMatches(st: ServerState, stamp: string): (j: Json)
    ensures Member(j, "matches") == Some(Arr(st.matches))
    ensures Member(j, "timestamp") == Some(Str(stamp))
    ensures Keys(j.members) == ["timestamp", "matches"]
  {
    var ps := [("timestamp", Str(stamp)), ("matches", Arr(st.matches))];
    assert Lookup(ps[1..], "matches") == Some(Arr(st.matches));
    Obj(ps)
  }
}

=== FILE: stringify.dfy ===
/** `JSON.stringify` over the modelled JSON values, and the helper `isEqual`
    of the live scoreboard (my-react-app/src/TennisData.jsx), which compares
    two values by their stringifications. The main result is that this
    comparison is exactly structural equality: the stringification is
    injective, because every value's text can be read back in one way only. */
module Stringify {
  import opened Json
  import opened Digits

  /** Lower-case hexadecimal digit. */
  function HexChar(d: nat): (c: char)
    requires d < 16
  {
    if d < 10 then DigitChar(d) else (('a' as int) + d - 10) as char
  }

  /** The JSON text of one string character. `"` and `\` and the control
      characters below U+0020 are escaped, with the short forms for
      backspace, tab, line feed, form feed and carriage return and a
      `\u00XX` form for the others; every other character stands for itself. */
  function EscapeChar(c: char): (e: string)
    ensures |e| > 0 && e[0] != '"'
  {
    if c as int == 0x08 then "\\b"
    else if c as int == 0x09 then "\\t"
    else if c as int == 0x0A then "\\n"
    else if c as int == 0x0C then "\\f"
    else if c as int == 0x0D then "\\r"
    else if c == '"' then "\\\""
    else if c == '\\' then "\\\\"
    else if (c as int) < 0x20 then "\\u00" + [HexChar(c as int / 16), HexChar(c as int % 16)]
    else [c]
  }

  function Escape(s: string): string {
    if |s| == 0 then "" else EscapeChar(s[0]) + Escape(s[1..])
  }

  /** A string literal in JSON text. */
  function Quote(s: string): string {
    "\"" + Escape(s) + "\""
  }

  /** `JSON.stringify(v)`, compact form (no spaces). */
  function Ser(v: Json): string
    decreases v
  {
    match v
    case Null => "null"
    case Bool(b) => if b then "true" else "false"
    case Num(n) => IntStr(n)
    case Str(s) => Quote(s)
    case Arr(xs) => "[" + SerItems(xs) + "]"
    case Obj(ps) => "{" + SerMembers(ps) + "}"
  }

  /** Array elements joined by commas. */
  function SerItems(xs: seq<Json>): string
    decreases xs
  {
    if |xs| == 0 then ""
    else if |xs| == 1 then Ser(xs[0])
    else Ser(xs[0]) + "," + SerItems(xs[1..])
  }

  /** One object member, `"key":value`. */
  function SerMember(p: (string, Json)): string
    decreases p
  {
    Quote(p.0) + ":" + Ser(p.1)
  }

  /** Object members joined by commas. */
  function SerMembers(ps: seq<(string, Json)>): string
    decreases ps
  {
    if |ps| == 0 then ""
    else if |ps| == 1 then SerMember(ps[0])
    else SerMember(ps[0]) + "," + SerMembers(ps[1..])
  }

  /** `isEqual(a, b)`: the two values stringify to the same text. */
  predicate IsEqual(a: Json, b: Json) {
    Ser(a) == Ser(b)
  }

  /** The text that follows a value inside a larger JSON text never starts
      with a digit (it is a comma, a closing bracket or brace, or nothing). */
  predicate NoDigitStart(s: string) {
    |s| == 0 || !IsDigit(s[0])
  }

  /** `isEqual` is structural equality: stringification loses nothing. */
  lemma IsEqualIsStructural(a: Json, b: Json)
    ensures IsEqual(a, b) <==> a == b
  {
    if IsEqual(a, b) {
      assert Ser(a) + "" == Ser(b) + "";
      SerUnique(a, b, "", "");
    }
  }

  lemma Strip(p: string, a: string, b: string)
    requires p + a == p + b
    ensures a == b
  {
    assert a == (p + a)[|p|..];
    assert b == (p + b)[|p|..];
  }

  lemma HexCharInjective(d: nat, e: nat)
    requires d < 16 && e < 16
    requires HexChar(d) == HexChar(e)
    ensures d == e
  {
  }

  /** The first character of a value's text tells which kind of value it is. */
  function Lead(v: Json): char {
    match v
    case Null => 'n'
    case Bool(b) => if b then 't' else 'f'
    case Num(n) => if n < 0 then '-' else 'd'
    case Str(_) => '"'
    case Arr(_) => '['
    case Obj(_) => '{'
  }

  lemma SerLead(v: Json, s: string)
    ensures |Ser(v)| > 0
    ensures (Ser(v) + s)[0] == Ser(v)[0]
    ensures v.Num? && v.n >= 0 ==> IsDigit(Ser(v)[0])
    ensures !(v.Num? && v.n >= 0) ==> Ser(v)[0] == Lead(v)
  {
    if v.Num? && v.n >= 0 {
      assert Ser(v)[0] == NatStr(v.n)[0];
    }
  }

  /** Two texts that start alike belong to values of the same kind. */
  lemma SameKind(a: Json, b: Json, s: string, t: string)
    requires Ser(a) + s == Ser(b) + t
    ensures a.Null? <==> b.Null?
    ensures a.Bool? <==> b.Bool?
    ensures a.Bool? ==> a.b == b.b
    ensures a.Num? <==> b.Num?
    ensures a.Str? <==> b.Str?
    ensures a.Arr? <==> b.Arr?
    ensures a.Obj? <==> b.Obj?
  {
    SerLead(a, s);
    SerLead(b, t);
  }

  /** No value's text starts with a separator or a closing bracket or brace. */
  lemma SerNotCloser(v: Json, s: string)
    ensures (Ser(v) + s)[0] != ']' && (Ser(v) + s)[0] != '}'
  {
    SerLead(v, s);
  }

  /** A single escaped character can be read back in one way only. */
  lemma EscapeCharUnique(c: char, d: char, a: string, b: string)
    requires EscapeChar(c) + a == EscapeChar(d) + b
    ensures c == d && a == b
  {
    var ec, ed := EscapeChar(c), EscapeChar(d);
    var l := ec + a;
    assert l[0] == ec[0];
    assert l[0] == ed[0];
    if |ec| == |ed| {
      assert ec == l[..|ec|];
      assert ed == (ed + b)[..|ed|];
      assert ec == ed;
      if |ec| == 6 {
        assert ec[4] == ed[4] && ec[5] == ed[5];
        HexCharInjective(c as int / 16, d as int / 16);
        HexCharInjective(c as int % 16, d as int % 16);
      }
      Strip(ec, a, b);
    } else {
      EscapeShape(c);
      EscapeShape(d);
      Heads(ec, a);
      Heads(ed, b);
      assert false;
    }
  }

  /** An escaped character is the character itself, a backslash and a
      letter other than `u`, or a six-character `\u00XX` form. */
  lemma EscapeShape(c: char)
    ensures var e := EscapeChar(c);
      || (|e| == 1 && e[0] == c && c != '\\')
      || (|e| == 2 && e[0] == '\\' && e[1] != 'u')
      || (|e| == 6 && e[0] == '\\' && e[1] == 'u')
  {
  }

  lemma Heads(e: string, a: string)
    ensures |e| > 0 ==> (e + a)[0] == e[0]
    ensures |e| > 1 ==> (e + a)[1] == e[1]
  {
  }

  /** An escaped string followed by its closing quote can be read back in one
      way only. */
  lemma {:induction false} EscapeUnique(x: string, y: string, s: string, t: string)
    requires Escape(x) + "\"" + s == Escape(y) + "\"" + t
    ensures x == y && s == t
    decreases |x|
  {
    if |x| == 0 && |y| == 0 {
      EscapeEmpty(x, s);
      EscapeEmpty(y, t);
      Strip("\"", s, t);
    } else if |x| == 0 || |y| == 0 {
      EscapeHead(x, s);
      EscapeHead(y, t);
      assert false;
    } else {
      EscapeCons(x, s);
      EscapeCons(y, t);
      EscapeCharUnique(x[0], y[0], Escape(x[1..]) + "\"" + s, Escape(y[1..]) + "\"" + t);
      EscapeUnique(x[1..], y[1..], s, t);
      SameHeadTail(x, y);
    }
  }

  lemma EscapeEmpty(x: string, s: string)
    requires |x| == 0
    ensures Escape(x) + "\"" + s == "\"" + s
  {
    assert Escape(x) == [];
  }

  lemma EscapeCons(x: string, s: string)
    requires |x| > 0
    ensures Escape(x) + "\"" + s == EscapeChar(x[0]) + (Escape(x[1..]) + "\"" + s)
  {
    assert Escape(x) == EscapeChar(x[0]) + Escape(x[1..]);
    Regroup(EscapeChar(x[0]), Escape(x[1..]), "\"", s);
  }

  lemma SameHeadTail<T>(x: seq<T>, y: seq<T>)
    requires |x| > 0 && |y| > 0 && x[0] == y[0] && x[1..] == y[1..]
    ensures x == y
  {
    assert x == [x[0]] + x[1..];
    assert y == [y[0]] + y[1..];
  }

  lemma EscapeHead(x: string, s: string)
    ensures |x| == 0 ==> (Escape(x) + "\"" + s)[0] == '"'
    ensures |x| > 0 ==> (Escape(x) + "\"" + s)[0] == EscapeChar(x[0])[0]
  {
    var ex := Escape(x);
    Heads(ex, "\"" + s);
    assert ex + "\"" + s == ex + ("\"" + s);
    if |x| > 0 {
      var e0 := EscapeChar(x[0]);
      assert ex == e0 + Escape(x[1..]);
      Heads(e0, Escape(x[1..]));
    }
  }

  lemma QuoteOpen(x: string, s: string)
    ensures Quote(x) + s == "\"" + (Escape(x) + "\"" + s)
  {
  }

  /** A quoted string can be read back in one way only. */
  lemma QuoteUnique(x: string, y: string, s: string, t: string)
    requires Quote(x) + s == Quote(y) + t
    ensures x == y && s == t
  {
    QuoteOpen(x, s);
    QuoteOpen(y, t);
    Strip("\"", Escape(x) + "\"" + s, Escape(y) + "\"" + t);
    EscapeUnique(x, y, s, t);
  }

  /** Text between a one-character opener and a closer, followed by more
      text, can drop the opener. */
  lemma Unwrap(o: string, m: string, c: string, s: string, n: string, t: string)
    requires (o + m + c) + s == (o + n + c) + t
    ensures m + c + s == n + c + t
  {
    assert (o + m + c) + s == o + (m + c + s);
    assert (o + n + c) + t == o + (n + c + t);
    Strip(o, m + c + s, n + c + t);
  }

  /** An array's text is its bracketed element list. */
  lemma ArrOpen(xs: seq<Json>, ys: seq<Json>, s: string, t: string)
    requires Ser(Arr(xs)) + s == Ser(Arr(ys)) + t
    ensures SerItems(xs) + "]" + s == SerItems(ys) + "]" + t
  {
    assert Ser(Arr(xs)) == "[" + SerItems(xs) + "]";
    assert Ser(Arr(ys)) == "[" + SerItems(ys) + "]";
    Unwrap("[", SerItems(xs), "]", s, SerItems(ys), t);
  }

  /** An object's text is its braced member list. */
  lemma ObjOpen(ps: seq<(string, Json)>, qs: seq<(string, Json)>, s: string, t: string)
    requires Ser(Obj(ps)) + s == Ser(Obj(qs)) + t
    ensures SerMembers(ps) + "}" + s == SerMembers(qs) + "}" + t
  {
    assert Ser(Obj(ps)) == "{" + SerMembers(ps) + "}";
    assert Ser(Obj(qs)) == "{" + SerMembers(qs) + "}";
    Unwrap("{", SerMembers(ps), "}", s, SerMembers(qs), t);
  }

  /** The text of a value, followed by text that does not start with a digit,
      can be read back in one way only. */
  lemma {:induction false} SerUnique(a: Json, b: Json, s: string, t: string)
    requires NoDigitStart(s) && NoDigitStart(t)
    requires Ser(a) + s == Ser(b) + t
    ensures a == b && s == t
    decreases a
  {
    SameKind(a, b, s, t);
    match a {
      case Null =>
        Strip("null", s, t);
      case Bool(x) =>
        if x { Strip("true", s, t); } else { Strip("false", s, t); }
      case Num(n) =>
        IntStrUnique(n, b.n, s, t);
      case Str(x) =>
        QuoteUnique(x, b.s, s, t);
      case Arr(xs) =>
        ArrOpen(xs, b.items, s, t);
        ItemsUnique(xs, b.items, s, t);
      case Obj(ps) =>
        ObjOpen(ps, b.members, s, t);
        MembersUnique(ps, b.members, s, t);
    }
  }

  /** What follows the first element of a non-empty array's element list. */
  function ItemsTail(xs: seq<Json>): string
    requires |xs| > 0
  {
    if |xs| == 1 then "" else "," + SerItems(xs[1..])
  }

  /** Regrouping a concatenation around a closing bracket or brace. */
  lemma Regroup(h: string, m: string, c: string, s: string)
    ensures h + m + c + s == h + (m + c + s)
  {
  }

  lemma ItemsCons(xs: seq<Json>, s: string)
    requires |xs| > 0
    ensures SerItems(xs) + "]" + s == Ser(xs[0]) + (ItemsTail(xs) + "]" + s)
    ensures NoDigitStart(ItemsTail(xs) + "]" + s)
    ensures (ItemsTail(xs) + "]" + s)[0] == if |xs| == 1 then ']' else ','
  {
    var h := Ser(xs[0]);
    var tl := ItemsTail(xs);
    assert SerItems(xs) == h + tl;
    Regroup(h, tl, "]", s);
    TailHead(tl, |xs| == 1, "]", s);
  }

  /** The character after a first element or member: a closing bracket or
      brace when it was the only one, else the separating comma. */
  lemma TailHead(tl: string, last: bool, close: string, s: string)
    requires |close| == 1 && !IsDigit(close[0])
    requires last ==> tl == ""
    requires !last ==> |tl| > 0 && tl[0] == ','
    ensures NoDigitStart(tl + close + s)
    ensures (tl + close + s)[0] == if last then close[0] else ','
  {
  }

  lemma ItemsNext(xs: seq<Json>, ys: seq<Json>, s: string, t: string)
    requires |xs| > 1 && |ys| > 1
    requires ItemsTail(xs) + "]" + s == ItemsTail(ys) + "]" + t
    ensures SerItems(xs[1..]) + "]" + s == SerItems(ys[1..]) + "]" + t
  {
    Regroup(",", SerItems(xs[1..]), "]", s);
    Regroup(",", SerItems(ys[1..]), "]", t);
    Strip(",", SerItems(xs[1..]) + "]" + s, SerItems(ys[1..]) + "]" + t);
  }

  /** An empty element list forces the other to be empty too. */
  lemma ItemsEmpty(xs: seq<Json>, ys: seq<Json>, s: string, t: string)
    requires |xs| == 0 && SerItems(xs) + "]" + s == SerItems(ys) + "]" + t
    ensures |ys| == 0 && s == t
  {
    assert SerItems(xs) + "]" + s == "]" + s;
    if |ys| > 0 {
      ItemsCons(ys, t);
      SerNotCloser(ys[0], ItemsTail(ys) + "]" + t);
      assert false;
    }
    assert SerItems(ys) + "]" + t == "]" + t;
    Strip("]", s, t);
  }

  /** After equal first elements, both lists end together or both go on. */
  lemma ItemsRest(xs: seq<Json>, ys: seq<Json>, s: string, t: string)
    requires |xs| > 0 && |ys| > 0
    requires ItemsTail(xs) + "]" + s == ItemsTail(ys) + "]" + t
    ensures |xs| == 1 <==> |ys| == 1
    ensures |xs| == 1 ==> s == t
    ensures |xs| > 1 ==> SerItems(xs[1..]) + "]" + s == SerItems(ys[1..]) + "]" + t
  {
    ItemsCons(xs, s);
    ItemsCons(ys, t);
    if |xs| == 1 && |ys| == 1 {
      assert ItemsTail(xs) + "]" + s == "]" + s;
      assert ItemsTail(ys) + "]" + t == "]" + t;
      Strip("]", s, t);
    } else if |xs| > 1 && |ys| > 1 {
      ItemsNext(xs, ys, s, t);
    }
  }

  /** Array elements followed by the closing bracket can be read back in one
      way only. */
  lemma {:induction false} ItemsUnique(xs: seq<Json>, ys: seq<Json>, s: string, t: string)
    requires SerItems(xs) + "]" + s == SerItems(ys) + "]" + t
    ensures xs == ys && s == t
    decreases xs
  {
    if |xs| == 0 {
      ItemsEmpty(xs, ys, s, t);
    } else if |ys| == 0 {
      ItemsEmpty(ys, xs, t, s);
    } else {
      ItemsCons(xs, s);
      ItemsCons(ys, t);
      SerUnique(xs[0], ys[0], ItemsTail(xs) + "]" + s, ItemsTail(ys) + "]" + t);
      ItemsRest(xs, ys, s, t);
      if |xs| > 1 {
        ItemsUnique(xs[1..], ys[1..], s, t);
      }
      SameHeadTail(xs, ys);
    }
  }

  /** An object member followed by a comma or closing brace can be read
      back in one way only. */
  lemma {:induction false} MemberUnique(p: (string, Json), q: (string, Json), s: string, t: string)
    requires NoDigitStart(s) && NoDigitStart(t)
    requires SerMember(p) + s == SerMember(q) + t
    ensures p == q && s == t
    decreases p
  {
    var rp := ":" + Ser(p.1) + s;
    var rq := ":" + Ser(q.1) + t;
    assert rp == ":" + (Ser(p.1) + s);
    assert rq == ":" + (Ser(q.1) + t);
    Regroup(Quote(p.0), ":", Ser(p.1), s);
    Regroup(Quote(q.0), ":", Ser(q.1), t);
    QuoteUnique(p.0, q.0, rp, rq);
    Strip(":", Ser(p.1) + s, Ser(q.1) + t);
    SerUnique(p.1, q.1, s, t);
  }

  /** What follows the first member of a non-empty object's member list. */
  function MembersTail(ps: seq<(string, Json)>): string
    requires |ps| > 0
  {
    if |ps| == 1 then "" else "," + SerMembers(ps[1..])
  }

  lemma MembersCons(ps: seq<(string, Json)>, s: string)
    requires |ps| > 0
    ensures SerMembers(ps) + "}" + s == SerMember(ps[0]) + (MembersTail(ps) + "}" + s)
    ensures NoDigitStart(MembersTail(ps) + "}" + s)
    ensures (MembersTail(ps) + "}" + s)[0] == if |ps| == 1 then '}' else ','
    ensures (SerMembers(ps) + "}" + s)[0] == '"'
  {
    MemberHead(ps[0], MembersTail(ps) + "}" + s);
    var h := SerMember(ps[0]);
    var tl := MembersTail(ps);
    assert SerMembers(ps) == h + tl;
    Regroup(h, tl, "}", s);
    TailHead(tl, |ps| == 1, "}", s);
  }

  lemma MemberHead(p: (string, Json), s: string)
    ensures (SerMember(p) + s)[0] == '"'
  {
    var q := Quote(p.0);
    assert q[0] == '"';
    assert SerMember(p) + s == q + (":" + Ser(p.1) + s);
    Heads(q, ":" + Ser(p.1) + s);
  }

  lemma MembersNext(ps: seq<(string, Json)>, qs: seq<(string, Json)>, s: string, t: string)
    requires |ps| > 1 && |qs| > 1
    requires MembersTail(ps) + "}" + s == MembersTail(qs) + "}" + t
    ensures SerMembers(ps[1..]) + "}" + s == SerMembers(qs[1..]) + "}" + t
  {
    Regroup(",", SerMembers(ps[1..]), "}", s);
    Regroup(",", SerMembers(qs[1..]), "}", t);
    Strip(",", SerMembers(ps[1..]) + "}" + s, SerMembers(qs[1..]) + "}" + t);
  }

  /** An empty member list forces the other to be empty too. */
  lemma MembersEmpty(ps: seq<(string, Json)>, qs: seq<(string, Json)>, s: string, t: string)
    requires |ps| == 0 && SerMembers(ps) + "}" + s == SerMembers(qs) + "}" + t
    ensures |qs| == 0 && s == t
  {
    assert SerMembers(ps) + "}" + s == "}" + s;
    if |qs| > 0 {
      MembersCons(qs, t);
      assert false;
    }
    assert SerMembers(qs) + "}" + t == "}" + t;
    Strip("}", s, t);
  }

  /** After equal first members, both lists end together or both go on. */
  lemma MembersRest(ps: seq<(string, Json)>, qs: seq<(string, Json)>, s: string, t: string)
    requires |ps| > 0 && |qs| > 0
    requires MembersTail(ps) + "}" + s == MembersTail(qs) + "}" + t
    ensures |ps| == 1 <==> |qs| == 1
    ensures |ps| == 1 ==> s == t
    ensures |ps| > 1 ==> SerMembers(ps[1..]) + "}" + s == SerMembers(qs[1..]) + "}" + t
  {
    MembersCons(ps, s);
    MembersCons(qs, t);
    if |ps| == 1 && |qs| == 1 {
      assert MembersTail(ps) + "}" + s == "}" + s;
      assert MembersTail(qs) + "}" + t == "}" + t;
      Strip("}", s, t);
    } else if |ps| > 1 && |qs| > 1 {
      MembersNext(ps, qs, s, t);
    }
  }

  /** Object members followed by the closing brace can be read back in one
      way only. */
  lemma {:induction false} MembersUnique(ps: seq<(string, Json)>, qs: seq<(string, Json)>, s: string, t: string)
    requires SerMembers(ps) + "}" + s == SerMembers(qs) + "}" + t
    ensures ps == qs && s == t
    decreases ps
  {
    if |ps| == 0 {
      MembersEmpty(ps, qs, s, t);
    } else if |qs| == 0 {
      MembersEmpty(qs, ps, t, s);
    } else {
      MembersCons(ps, s);
      MembersCons(qs, t);
      MemberUnique(ps[0], qs[0], MembersTail(ps) + "}" + s, MembersTail(qs) + "}" + t);
      MembersRest(ps, qs, s, t);
      if |ps| > 1 {
        MembersUnique(ps[1..], qs[1..], s, t);
      }
      SameHeadTail(ps, qs);
    }
  }
}

=== FILE: tennis_view.dfy ===
/** What the live list (my-react-app/src/TennisData.jsx) shows for a given
    engine state: the view it chooses, each card's status text, and the
    figures its debug overlay receives. */
module TennisView {
  import opened Wrappers
  import opened Json
  import opened Engine
  import opened EngineProps
  import opened MatchDetail
  import opened Overlay
  import opened PlayerName

  /** The `time_status` codes with a name, and their names, position by position. */
  const StatusCodes: seq<string> := ["1", "2", "3", "4", "5"]
  const StatusNames: seq<string> := ["In Progress", "Not Started", "Finished", "Postponed", "Cancelled"]
  const UnknownStatus := "Unknown"

  /** `formatTimeStatus(status)`: a `switch`, so only the exact strings
      match; the number 1, say, is "Unknown". */
  function FormatTimeStatus(status: Json): (t: string)
    ensures forall i :: 0 <= i < |StatusCodes| && status == Str(StatusCodes[i]) ==> t == StatusNames[i]
    ensures t == UnknownStatus <==> !(status.Str? && status.s in StatusCodes)
  {
    match status
    case Str("1") => "In Progress"
    case Str("2") => "Not Started"
    case Str("3") => "Finished"
    case Str("4") => "Postponed"
    case Str("5") => "Cancelled"
    case _ => UnknownStatus
  }

  /** Different named statuses have different names. */
  lemma TimeStatusInjective(a: Json, b: Json)
    requires FormatTimeStatus(a) == FormatTimeStatus(b) != UnknownStatus
    ensures a == b
  {
  }

  /** A card's status text: `inplayEvent.time_status || '0'`, formatted. */
  function CardStatus(record: Json): (t: string)
    ensures var ts := Member(InplayEvent(record), "time_status");
      ts.None? || !JsTruthy(ts.value) ==> t == UnknownStatus
  {
    FormatTimeStatus(JsOr(Member(InplayEvent(record), "time_status"), Str("0")))
  }

  /** One set of the score row: `setScore.home` throws on `null`, and each
      side it shows must be renderable. */
  predicate SetThrows(setScore: Json) {
    setScore.Null? || !ShownOk(Member(setScore, "home")) || !ShownOk(Member(setScore, "away"))
  }

  /** Whether rendering the card of one held match throws: `match.betsapi_data`
      on `null`, `name.replace` on a truthy non-string name, `setScore.home`
      on a `null` set, or an object shown as a child (the league name, `ss`,
      a set's sides, `points`). Every other access has a `|| {}` fallback. */
  predicate CardThrows(record: Json) {
    if record.Null? then true
    else
      var ev := InplayEvent(record);
      var home := JsOr(Member(ev, "home"), Obj([]));
      var away := JsOr(Member(ev, "away"), Obj([]));
      var league := JsOr(Member(ev, "league"), Obj([]));
      var scores := Entries(JsOr(Member(ev, "scores"), Obj([]))).value;
      || FormatPlayerName(Member(home, "name")).Failure?
      || FormatPlayerName(Member(away, "name")).Failure?
      || !Renderable(JsOr(Member(league, "name"), Str("Unknown League")))
      || !ShownOk(Member(ev, "ss"))
      || !ShownOk(Member(ev, "points"))
      || exists i :: 0 <= i < |scores| && SetThrows(scores[i].1)
  }

  /** The list page's views. `RenderCrash` is the TypeError the render
      throws: the held `matches` is truthy with a non-zero length but is not
      an array, so has no `map`, or some card throws. */
  datatype ListView =
    | LoadingView
    | ErrorScreen(message: string)
    | NoMatches
    | MatchList(cards: seq<Json>)
    | RenderCrash

  /** The early returns of the render, in order: loading with nothing held,
      an error, nothing (or an empty list) held; then the cards. */
  function MainView(s: State): (v: ListView)
    ensures v.LoadingView? <==> s.loading && s.data.None?
    ensures v.ErrorScreen? <==> !(s.loading && s.data.None?) && s.error.Some? && s.error.value != ""
    ensures v.ErrorScreen? ==> v.message == s.error.value
    ensures v.MatchList? ==> s.data.Some? && s.data.value.matches == Arr(v.cards)
                             && forall i :: 0 <= i < |v.cards| ==> !CardThrows(v.cards[i])
    ensures v.RenderCrash? ==> s.data.Some? && (!s.data.value.matches.Arr? ||
                                 exists i :: 0 <= i < |s.data.value.matches.items| && CardThrows(s.data.value.matches.items[i]))
  {
    if s.loading && s.data.None? then LoadingView
    else if s.error.Some? && s.error.value != "" then ErrorScreen(s.error.value)
    else if s.data.None? || !JsTruthy(s.data.value.matches) || JsLength(s.data.value.matches) == Some(0) then NoMatches
    else match s.data.value.matches
      case Arr(xs) =>
        if exists i :: 0 <= i < |xs| && CardThrows(xs[i]) then RenderCrash else MatchList(xs)
      case _ => RenderCrash
  }

  /** In a reachable state with no error showing, held matches are never
      "no matches": an array is shown as its cards exactly when no card
      throws, and otherwise (or when the server offered a non-array with a
      length) the render crashes. */
  lemma HeldMatchesShown(s: State)
    requires Inv(s)
    requires s.data.Some?
    requires s.error.None? || s.error.value == ""
    ensures var ms := s.data.value.matches;
      ms.Arr? ==> (&& |ms.items| > 0
                   && (MainView(s) == MatchList(ms.items) <==> forall i :: 0 <= i < |ms.items| ==> !CardThrows(ms.items[i])))
    ensures var ms := s.data.value.matches;
      MainView(s) == RenderCrash <==>
        !ms.Arr? || exists i :: 0 <= i < |ms.items| && CardThrows(ms.items[i])
  {
  }

  /** A player whose name is a number crashes the list, like `null` does. */
  lemma NumericNameCrashes()
    ensures CardThrows(Obj([("betsapi_data", Obj([("inplayEvent", Obj([("home", Obj([("name", Num(7))]))]))]))]))
  {
    var home := Obj([("name", Num(7))]);
    var ev := Obj([("home", home)]);
    var record := Obj([("betsapi_data", Obj([("inplayEvent", ev)]))]);
    assert InplayEvent(record) == ev;
    assert JsOr(Member(ev, "home"), Obj([])) == home;
    assert FormatPlayerName(Member(home, "name")).Failure?;
  }

  /** A `null` set score crashes the list. */
  lemma NullSetCrashes()
    ensures CardThrows(Obj([("betsapi_data", Obj([("inplayEvent", Obj([("scores", Obj([("1", Null)]))]))]))]))
  {
    var ev := Obj([("scores", Obj([("1", Null)]))]);
    var record := Obj([("betsapi_data", Obj([("inplayEvent", ev)]))]);
    assert InplayEvent(record) == ev;
    var scores := Entries(JsOr(Member(ev, "scores"), Obj([]))).value;
    assert scores == [("1", Null)];
    assert SetThrows(scores[0].1);
  }

  /** A match with no `betsapi_data` at all shows as a card of defaults. */
  lemma BareCardRenders()
    ensures !CardThrows(Obj([]))
  {
    assert InplayEvent(Obj([])) == Obj([]);
    assert Entries(Obj([])).value == [];
  }

  /** A socket error replaces the list by the error screen, though the matches
      are still held; it stays until a fetch completes with a body. */
  lemma SocketErrorHidesList(s: State)
    requires !(s.loading && s.data.None?)
    ensures MainView(Step(s, Error)) == ErrorScreen(SocketErrorMessage)
    ensures Step(s, Error).data == s.data
  {
  }

  /** A fetch whose body is not `null` clears the error screen. */
  lemma FetchClearsErrorScreen(s: State, body: Json, clockMs: nat)
    requires !body.Null?
    ensures !MainView(Step(s, HttpOk(body, clockMs))).ErrorScreen?
  {
  }

  /** Whether the render shows the overlay: forced on the loading screen,
      following the toggle on the list of cards, and absent from the error
      and "no matches" screens (and from a render that throws). */
  function OverlayVisible(s: State, toggle: bool): (shown: bool)
    ensures MainView(s).LoadingView? ==> shown
    ensures MainView(s).MatchList? ==> (shown <==> toggle)
    ensures MainView(s).ErrorScreen? || MainView(s).NoMatches? || MainView(s).RenderCrash? ==> !shown
  {
    match MainView(s)
    case LoadingView => true
    case MatchList(_) => toggle
    case _ => false
  }

  /** The overlay, given whether it is shown (`OverlayVisible`); its figures
      come from the engine. */
  function DebugPanel(s: State, visible: bool, elapsedMs: nat): (p: Option<Panel>)
    ensures p.None? <==> !visible
  {
    var last := match s.lastMessage case Some(m) => Str(m) case None => Null;
    Render(visible, s.status.Text(), s.wsMessageCount, last, s.updateCount, elapsedMs)
  }

  /** The overlay a render shows is there exactly when `OverlayVisible` says. */
  lemma RenderedPanel(s: State, toggle: bool, elapsedMs: nat)
    ensures DebugPanel(s, OverlayVisible(s, toggle), elapsedMs).Some? <==>
              MainView(s).LoadingView? || (MainView(s).MatchList? && toggle)
  {
  }

  /** In a reachable state the overlay's status always has its own colour,
      its efficiency is a percentage, and the last message it shows is at
      most 103 characters, starting with the frame's own text. */
  lemma DebugPanelFigures(s: State, elapsedMs: nat)
    requires Inv(s)
    ensures var p := DebugPanel(s, true, elapsedMs).value;
      && p.color != UnknownColor
      && (p.efficiency.Percent? ==> 0.0 <= p.efficiency.value <= 100.0)
      && |p.lastMessage| <= SummaryLimit + 3
  {
    EfficiencyBounded(s.wsMessageCount, s.updateCount);
    var p := DebugPanel(s, true, elapsedMs).value;
    assert p.color == StatusColor(s.status.Text());
  }

  /** The message the overlay shows for a frame of more than 100 characters
      is the frame's first 100 characters and an ellipsis. */
  lemma LongFrameSummary(s: State, raw: string, parsed: Option<Json>, elapsedMs: nat)
    requires |raw| > SummaryLimit
    ensures var p := DebugPanel(Step(s, WsFrame(raw, parsed)), true, elapsedMs).value;
      p.lastMessage == raw[..SummaryLimit] + "..."
  {
    var r := Step(s, WsFrame(raw, parsed));
    var pv := Preview(raw);
    assert r.lastMessage == Some(pv);
    assert pv[..SummaryLimit] == raw[..SummaryLimit] by {
      if |raw| > PreviewLimit {
        assert pv[..SummaryLimit] == pv[..PreviewLimit][..SummaryLimit];
      }
    }
    var m := FormatLastMessage(Str(pv));
    assert m == m[..SummaryLimit] + m[SummaryLimit..];
  }
}

=== FILE: wrappers.dfy ===
/** Option and Result, the two failure-aware wrappers the model uses for
    JavaScript's `undefined`/`null` and for exceptions raised by Python code. */
module Wrappers {

  /** A value that may be absent. */
  datatype Option<+T> = None | Some(value: T) {

    /** The held value, or `default` when there is none. */
    function GetOr(default: T): T {
      match this
      case Some(v) => v
      case None => default
    }
  }

  /** The outcome of a computation that may raise. */
  datatype Result<+R, +E> = Success(value: R) | Failure(error: E) {

    predicate IsFailure() {
      Failure?
    }

    function PropagateFailure<U>(): Result<U, E>
      requires Failure?
    {
      Failure(error)
    }

    function Extract(): R
      requires Success?
    {
      value
    }
  }
}
